=== FILE: README.md ===
# Decode and late ALU stages of a cycle-accurate MIPS/RISC-V pipeline simulator

This project models two per-cycle pipeline-stage controllers of the simulator
as pure step functions in Dafny. Each takes the stage state and what the
stage's read ports deliver in one cycle. Each returns the new state and the
list of port writes the stage makes, in source order.

- **Decode** (`Decode.Clock`) models these parts:
  - the early exits: a flush or trap, then a bubble;
  - the preference for the stall-replay channel over the fetch channel;
  - misprediction detection, with its counters and its predictor-update, fetch-flush and redirect writes;
  - the choice between stalling on a data hazard and committing the instruction;
  - on commit, the bypass commands for the two source slots.

  The forwarding-path priority encoder `get_path` is `DecodePaths.GetPath`. The in-flight flags of `set_registers` are `Decode.SetRegisters`. Both read five "in flight" stage tables. No code of the stage ever writes those tables, so the model keeps them as caller-supplied state with no update rule.
- **Late ALU** (`LateAlu.Clock`) models these parts:
  - the flush-expiration countdown;
  - flush and bubble handling;
  - per-slot operand selection: the last value drained from the data port that a bypass command selects, or a register-file read;
  - routing of the executed instruction to exactly one destination.

The model keeps the code's behaviour as written, including these points:

- In `get_path`, the second and third arms repeat the first arm's condition with an extra conjunct. They can never run, so the tables' alu numbers are never consulted.
- When `get_path` finds no producer, it sets the path number to -1. It leaves the record's alu number and instruction count as an earlier cycle left them. A later cycle then acts on those stale values.
- When some source is the zero register, the register-file reads follow the `is_register_k` flags stored by an earlier `set_registers` call. The current tables do not decide them.
- A mispredicted instruction that stalls, while the bypassing unit reports a stall so that no fetch flush is written, is counted again when it is replayed.

External parts are parameters or inputs:

- The bypassing unit (`DataBypass`) is abstract:
  - its state-changing calls are recorded (`Decode.BypassCall`);
  - its answers are inputs of the cycle;
  - each `get_bypass_command` call is recorded by its arguments.
- The register file is a function from register numbers to values. Reads are also recorded by slot.
- `FuncInstr::execute` is a function from the instruction to its destination value.

Modules:

- `Common` (common.dfy): option and result types, `uint64` wrap-around, the two source slots.
- `Instruction` (instr.dfy): the instruction record.
- `DecodePaths` (decode_paths.dfy): the stage tables, the registers records, `get_path` and a first-producer reference definition.
- `Decode` (decode.dfy): the decode stage.
- `DecodeLemmas` (decode_lemmas.dfy): properties of the decode stage.
- `LateAlu` (late_alu.dfy): the late ALU stage.
- `LateAluLemmas` (late_alu_lemmas.dfy): properties of the late ALU stage.

## Model

| member | source | states |
|---|---|---|
| Common.Inc64 | simulator/modules/decode/decode.cpp:104-110 | a counter increment is taken modulo 2^64, as on the `uint64` counters |
| DecodePaths.GetPathArm | simulator/modules/decode/decode.cpp:216-255 | the if-chain of `get_path` never takes its second or third arm, and takes the final `else` exactly when no table marks the slot |
| DecodePaths.GetPath | simulator/modules/decode/decode.cpp:213-256 | the path is -1 exactly when no table marks the slot; then the alu number and instruction count keep their earlier values; otherwise the record is one of (1, 1, 2), (2, 0, 1), (5, 0, 1) or (3, 0, 1), so the dead arms' records never occur; field ranges are kept |
| DecodePaths.FirstProducer | simulator/modules/decode/decode.cpp:216-251 | reference scan: a stage in the order whose table marks the slot, or none exactly when no table does |
| DecodePaths.FirstProducerIsFirst | simulator/modules/decode/decode.cpp:216-251 | the stage the reference scan finds is the first in the order whose table marks the slot |
| Decode.Init | simulator/modules/decode/decode.h:35-76 | a new stage has zero jump and misprediction counters (as the getters report them), both in-flight flags false, alu number 0, both records at their defaults of path 0, alu 0 and instruction 0, and all five tables unmarked with alu number 0 |
| Decode.BypassCalls | simulator/modules/decode/decode.cpp:76-87 | `update` comes first; `trace_new_instr` gets the notified instruction whenever one is ready; `handle_flush` runs exactly when a flush notification or a trap is present, and then last; each call happens at most once |
| Decode.ReadInstr | simulator/modules/decode/decode.cpp:37-44 | the replay channel is taken whenever it is ready, ahead of fetch, and `from_stall` is true exactly then |
| Decode.IsMisprediction | simulator/modules/decode/decode.cpp:46-59 | flagged whenever a jump is predicted not taken, a likely branch missed the predictor, or a direct jump or branch is predicted taken to a target other than its decoded one; in no other case |
| Decode.RedirectWrites | simulator/modules/decode/decode.cpp:107-126 | one predictor update first, a fetch flush exactly when the unit does not stall, a redirect target exactly when not replayed, and nothing to other ports |
| Decode.SetRegisters | simulator/modules/decode/decode.cpp:259-276 | each slot's flag becomes whether any of the five tables marks that slot; nothing else changes |
| Decode.IssueWithRecords | simulator/modules/decode/decode.cpp:144-182 | one command per slot carrying the slot's path; with a source in flight the alu number comes from the first slot in flight and there is no register-file read; otherwise, for two different sources, the first record whose instruction count exceeds 1 decides a single read and supplies its alu number to the instruction and the stage |
| Decode.IssueWithPaths | simulator/modules/decode/decode.cpp:139-183 | the flags are refreshed and both records replaced by the `get_path` result, then commands are issued as above; with no source in flight the read and the alu number are driven by instruction counts and alu numbers left in the records by earlier cycles |
| Decode.IssueFromRegisterFile | simulator/modules/decode/decode.cpp:184-192 | no command, alu number 0, and slot k is read from the register file exactly when its stored flag is false |
| Decode.Issue | simulator/modules/decode/decode.cpp:128-193 | only operand values and the alu number of the instruction change; with a zero source: no command, alu number 0, and slot k read exactly when its stored flag is false; with both sources non-zero: flags and records refreshed by `set_registers`/`get_path`, one command per slot carrying that slot's path, the alu number from the first slot in flight, or with none in flight the read and alu number chosen by each slot's own stale record |
| Decode.HandleMisprediction | simulator/modules/decode/decode.cpp:102-126 | the jump counter steps exactly for a jump, the misprediction counter exactly for a misprediction; redirect writes only on a misprediction |
| Decode.StallCycle | simulator/modules/decode/decode.cpp:194-201 | after the redirect writes: stall, then the same instruction on the replay channel; nothing to execute, notify or the command ports; state unchanged |
| Decode.CommitWritesCounts | simulator/modules/decode/decode.cpp:153-209 | a committing cycle writes notify and execute once each, never stall, and the same number of commands to each slot |
| Decode.CommitCycle | simulator/modules/decode/decode.cpp:203-209 | the writes are the redirect writes, then exactly the commands `Issue` computed (with their path numbers), then notify and execute with the issued instruction; no stall |
| Decode.Process | simulator/modules/decode/decode.cpp:102-209 | counters as above, tables untouched, misprediction port counts, and exactly one of stall or commit |
| Decode.Clock | simulator/modules/decode/decode.cpp:68-210 | every cycle makes the bypass calls; a flush, trap or bubble leaves the state and writes nothing; otherwise the cycle processes the instruction `read_instr` takes |
| DecodeLemmas.IndirectJumpPredictedTakenNotFlagged | simulator/modules/decode/decode.cpp:56-58 | an indirect jump predicted taken is never flagged, unless a likely branch missed |
| DecodeLemmas.NonControlNeverFlagged | simulator/modules/decode/decode.cpp:46-59 | an instruction that is no jump, branch or likely branch is never flagged |
| DecodeLemmas.CorrectTakenPredictionNotFlagged | simulator/modules/decode/decode.cpp:56-58 | a taken prediction to the decoded target is not flagged, unless a likely branch missed |
| DecodeLemmas.GetPathIsFirstProducerWins | simulator/modules/decode/decode.cpp:213-256 | `get_path` equals a first-producer-wins scan over the tables in the order decode-to-execute, execute-to-mem, execute-to-late-alu, late-alu-to-writeback, mem-to-writeback |
| DecodeLemmas.AluNumbersNeverConsulted | simulator/modules/decode/decode.cpp:222-233 | because those arms are dead, changing any table's alu number never changes `get_path` |
| DecodeLemmas.SetRegistersAgreesWithGetPath | simulator/modules/decode/decode.cpp:259-276 | the stored flag of a slot is true exactly when `get_path` finds a path for it |
| DecodeLemmas.StaleRecordDrivesRegisterFileRead | simulator/modules/decode/decode.cpp:159-170 | with no producer anywhere, a record left as (path 1, alu 1, instruction 2) makes the next instruction read source 1 from the register file and take alu 1 |
| DecodeLemmas.StoredFlagsDecideRegisterFileReads | simulator/modules/decode/decode.cpp:184-192 | same tables, same instruction, different stored flag: different register-file reads |
| DecodeLemmas.FlushCycleEmitsNothing | simulator/modules/decode/decode.cpp:73-93 | a flush or trap cycle writes nothing and keeps the state; `handle_flush` runs exactly when a trap or flush notification is present |
| DecodeLemmas.FlushPortsDecideEarlyExit | simulator/modules/decode/decode.cpp:61-93 | without a trap or bubble, a cycle writes nothing exactly when the branch flush port or the fetch-flush port carries true |
| DecodeLemmas.TrapStopsCycle | simulator/modules/decode/decode.cpp:73-93 | a trap keeps the state, writes and reads nothing, and ends the cycle's bypass calls with `handle_flush` |
| DecodeLemmas.BubbleCycleEmitsNothing | simulator/modules/decode/decode.cpp:95-100 | a cycle with neither channel ready writes nothing and keeps the state |
| DecodeLemmas.CountersOnProcessingCycle | simulator/modules/decode/decode.cpp:104-110 | the jump counter steps exactly for a jump and the misprediction counter exactly for a misprediction |
| DecodeLemmas.GettersAfterCycle | simulator/modules/decode/decode.h:29-40 | after any cycle the jump getter reports one more (mod 2^64) exactly for a processed jump, the misprediction getter exactly for a processed misprediction |
| DecodeLemmas.MispredictionWrites | simulator/modules/decode/decode.cpp:107-126 | one predictor update on a misprediction, a fetch flush exactly when also not stalled, a redirect exactly when also not replayed |
| DecodeLemmas.PredictorUpdateWrittenFirst | simulator/modules/decode/decode.cpp:110-113 | on a misprediction the predictor update is the cycle's first write |
| DecodeLemmas.StallCycleOutcome | simulator/modules/decode/decode.cpp:194-201 | with operation latency above 1 the cycle ends with stall and the replayed instruction, and writes nothing to execute, notify or commands |
| DecodeLemmas.CommitCycleOutcome | simulator/modules/decode/decode.cpp:203-209 | otherwise the cycle ends with notify then execute, carrying the instruction read with only operands and alu number changed |
| DecodeLemmas.CommitCycleCounts | simulator/modules/decode/decode.cpp:139-209 | a committing cycle writes notify and execute once each, no stall, and one command per slot exactly when both sources are non-zero |
| DecodeLemmas.CommitCommandsCarryPaths | simulator/modules/decode/decode.cpp:139-182 | on a committing cycle with two non-zero sources, the command for each slot carries the issued instruction and the path number `get_path` finds for that slot in the current tables |
| DecodeLemmas.StallOrCommit | simulator/modules/decode/decode.cpp:128-209 | a processing cycle stalls or commits, never both; flush and bubble cycles do neither |
| DecodeLemmas.ReplayedMispredictionCountedAgain | simulator/modules/decode/decode.cpp:108-126 | a mispredicted instruction that stalls while the bypassing unit reports a stall adds a second misprediction and predictor update when replayed, but no second redirect |
| LateAlu.Create | simulator/modules/late_alu/late_alu.cpp:10-25 | the long latency is accepted exactly in [2, 64); stage and self-loop latency are one less, in [1, 62]; the flush starts expired |
| LateAlu.SaveFlush | simulator/modules/late_alu/late_alu.h:49 | the countdown is re-armed with the stage latency |
| LateAlu.ClockSavedFlush | simulator/modules/late_alu/late_alu.h:50-54 | the countdown drops by exactly one when non-zero, stays at zero, and never increases |
| LateAlu.Drain | simulator/modules/late_alu/late_alu.cpp:88-90 | draining a port yields its last value, or the starting value when it has none |
| LateAlu.SelectOperand | simulator/modules/late_alu/late_alu.cpp:84-96 | a ready command selects the last value of its data port, or zero, and empties that port; an index past the ports is an error; without a command the register file supplies the operand |
| LateAlu.Route | simulator/modules/late_alu/late_alu.cpp:106-123 | alu 0: exactly one destination, the last write; long arithmetic goes only to the self-loop, and nothing else ever does; otherwise the bypass value first, then branch for a jump and writeback for anything else; any other alu number: nothing |
| LateAlu.NextState | simulator/modules/late_alu/late_alu.cpp:58-70 | a flush re-arms the countdown to the stage latency after the decrement; otherwise the countdown is decremented |
| LateAlu.Work | simulator/modules/late_alu/late_alu.cpp:79-123 | the cycle fails exactly when a command's index is past the ports; otherwise it routes the executed instruction, which differs from the one read only in its operands and destination value |
| LateAlu.Clock | simulator/modules/late_alu/late_alu.cpp:53-124 | a flush, trap or bubble reads and writes nothing; an instruction fails exactly on a bad index and is otherwise routed, reading the register file exactly for slots without a command |
| LateAluLemmas.DefaultLatencyAccepted | simulator/modules/late_alu/late_alu.cpp:11-12 | the default latency 3 is accepted and gives stage latency 2 |
| LateAluLemmas.CountdownAfter | simulator/modules/late_alu/late_alu.h:50-54 | n decrements take the countdown to its value less n, or to zero |
| LateAluLemmas.ExpiredExactlyWhenCountedOut | simulator/modules/late_alu/late_alu.h:50-55 | after n countdown steps the flush has expired exactly when n reaches the countdown |
| LateAluLemmas.ExpiresAfterStageLatency | simulator/modules/late_alu/late_alu.h:49-55 | after `save_flush`, exactly stage-latency decrements make the flush expired, and no fewer |
| LateAluLemmas.QuietRunCountsDown | simulator/modules/late_alu/late_alu.cpp:58-77 | a run of cycles without flush only counts the countdown down |
| LateAluLemmas.FlushThenQuietCycles | simulator/modules/late_alu/late_alu.cpp:58-70 | after a flush cycle and q quiet cycles the flush has expired exactly when q reaches the stage latency |
| LateAluLemmas.OperandFromBypass | simulator/modules/late_alu/late_alu.cpp:84-92 | in a cycle that does not fail, a slot with a command gets the last value of the selected port, or zero, with no register-file read, and the port is left empty |
| LateAluLemmas.OperandFromRegisterFile | simulator/modules/late_alu/late_alu.cpp:93-96 | a slot without a command gets the register file's value of its source register, and its ports are untouched |
| LateAluLemmas.ResultIsExecuted | simulator/modules/late_alu/late_alu.cpp:100-101 | the destination value is what execution computes from the instruction with its selected operands |
| LateAluLemmas.OneDestinationPerInstruction | simulator/modules/late_alu/late_alu.cpp:106-123 | with alu 0 exactly one write is a destination and it carries the executed instruction: the self-loop iff long arithmetic, branch iff a jump that is not long arithmetic, writeback otherwise; only long arithmetic has no bypass write; with another alu number nothing is written |
| LateAluLemmas.CountdownNeverGates | simulator/modules/late_alu/late_alu.h:55 | the countdown gates nothing in `clock`: two states with the same latency produce the same cycle apart from the state |

The header at simulator/modules/decode/decode.h:72-73 lacks the opening brace of `struct path`. The model reads it as the evident struct of two per-slot flags and an alu number. Each table entry is indexed by source slot 0 or 1, as `set_registers` indexes it.

The second and third arms of `get_path` look intended to let the decode-to-execute table's alu number choose between two forwarding records. The first arm shadows them. The model follows the code: `DecodeLemmas.GetPathIsFirstProducerWins` shows the encoder is a plain first-producer scan, and `DecodeLemmas.AluNumbersNeverConsulted` states that no alu number matters.

## Left out

- Port and channel timing: each read port is its value this cycle, or `None` when not ready. Outputs are a list of writes in program order. Latencies other than the late ALU's own, bandwidths and port wiring are not modelled.
- `DataBypass` internals: its state changes are recorded as calls and its answers are inputs. `get_bypass_command` is recorded by its arguments, not evaluated.
- Instruction semantics: classifiers are flags, register width is unbounded (`nat`), and `FuncInstr::execute` is a parameter that yields only the destination value.
- The register file: `RF::read_source` is a function parameter.
- The value of the branch-flush-notify port in decode: only its readiness is used, as in the code.
- The late ALU's branch datapath port is never created in the constructor. `LateAlu.Route` models the routing decision (a `Branch` write), not the missing port object.
- `InstructionOutput`: only its first element is read, so each data-port delivery is one value.
- `RegisterStage::BYPASSING_STAGES_NUMBER` is defined outside these files. It is taken as 6, the number of data ports the late ALU constructor fills.
- The late ALU's self-loop read port and `has_flush_expired()` are never used by `clock`. The model gives the self-loop latency and the countdown, and `LateAluLemmas.CountdownNeverGates` states that the countdown gates nothing.
- The decode stage's command ports to the late ALU are created but never written.
- `set_RF`, `set_wb_bandwidth`, `sout` logging, the `PredicatedValue` machinery beyond its numeric bound, and the template instantiations for the ISA variants.
- LateAlu.Clock: when slot 1's index is out of range after slot 0 drained a port, the error does not record the partly drained ports, because the exception ends the cycle.

=== FILE: common.dfy ===
/**
 Small shared vocabulary for the pipeline-stage models: optional values (a
 port that may or may not be ready this cycle), results with an error side,
 and the fixed-width integers the simulator stores its counters in.
 */
module Common {

  /** A value that may be absent; a read port is `None` when it is not ready this cycle. */
  datatype Option<+T> = None | Some(value: T)

  /** A value or an error; used where the source would throw. */
  datatype Result<+T, +E> = Ok(value: T) | Err(error: E)

  const U64_LIMIT: nat := 0x1_0000_0000_0000_0000

  /** An unsigned 64-bit integer (`uint64`). */
  type u64 = n: nat | n < U64_LIMIT

  /** An unsigned 8-bit integer (`uint8`). */
  type u8 = n: nat | n < 256

  /** Number of source operands of an instruction (`SRC_REGISTERS_NUM`). */
  const SRC_REGISTERS_NUM: nat := 2

  /** Index of a source operand: 0 for the first source, 1 for the second. */
  type Slot = k: nat | k < SRC_REGISTERS_NUM

  /** `n++` on a `uint64`: one more, wrapping to zero past the largest value. */
  function Inc64(n: u64): (r: u64)
    ensures r == (n + 1) % U64_LIMIT
    ensures n + 1 < U64_LIMIT ==> r == n + 1
  {
    if n + 1 == U64_LIMIT then 0 else n + 1
  }

  /** The bool port is ready this cycle and carries `true`. */
  predicate Asserted(p: Option<bool>)
  {
    p.Some? && p.value
  }
}

=== FILE: decode.dfy ===
/**
 The decode stage (`Decode<FuncInstr>`) as a pure step function: one call of
 `Clock` is one call of `Decode::clock`, taking the stage state and what its
 read ports deliver this cycle, and returning the new state together with
 the calls made on the bypassing unit, the register-file reads and the port
 writes, in the order the source performs them.

 The bypassing unit (`DataBypass`) is external. Its state changes are
 recorded as calls (`update`, `trace_new_instr`, `handle_flush`); its
 answers (`get_operation_latency`, `is_stall`) are inputs of the cycle; and
 each `get_bypass_command` call is recorded by its arguments, which is what
 the command written to the source slot's port is computed from.
 */
module Decode {
  import opened Common
  import opened Instruction
  import opened DecodePaths

  datatype DecodeState = DecodeState(
    numJumps: u64,
    numMispredictions: u64,
    aluNumberDecoder: int,
    isRegister1: bool,
    isRegister2: bool,
    register1: Registers,
    register2: Registers,
    tables: StageTables)
  {
    /** `is_register_1` / `is_register_2` */
    predicate IsRegister(k: Slot)
    {
      if k == 0 then isRegister1 else isRegister2
    }

    /** The stored `registers` records keep the ranges of their source field types. */
    predicate Valid()
    {
      InRange(register1) && InRange(register2)
    }
  }

  /** The state of a freshly constructed stage, with the member defaults of the class. */
  function Init(): (s: DecodeState)
    ensures s.Valid()
    ensures JumpsNum(s) == 0 && MispredictionsNum(s) == 0
    ensures !s.IsRegister(0) && !s.IsRegister(1)
    ensures forall k: Slot :: !AnyInFlight(s.tables, k)
    ensures s.register1 == DefaultRegisters && s.register2 == DefaultRegisters
    ensures s.tables == EmptyTables && s.aluNumberDecoder == 0
  {
    DecodeState(0, 0, 0, false, false, DefaultRegisters, DefaultRegisters, EmptyTables)
  }

  /** `get_mispredictions_num()` */
  function MispredictionsNum(s: DecodeState): u64
  {
    s.numMispredictions
  }

  /** `get_jumps_num()` */
  function JumpsNum(s: DecodeState): u64
  {
    s.numJumps
  }

  /** What the read ports deliver this cycle (`None` = not ready), and the bypassing unit's answers. */
  datatype DecodeInputs = DecodeInputs(
    /** FETCH_2_DECODE */
    datapath: Option<Instr>,
    /** DECODE_2_DECODE, the stall-replay self-loop */
    stallDatapath: Option<Instr>,
    /** BRANCH_2_ALL_FLUSH */
    flush: Option<bool>,
    /** DECODE_2_FETCH_FLUSH */
    flushFetch: Option<bool>,
    /** WRITEBACK_2_ALL_FLUSH */
    trap: Option<bool>,
    /** DECODE_2_BYPASSING_UNIT_NOTIFY */
    bypassNotify: Option<Instr>,
    /** BRANCH_2_BYPASSING_UNIT_FLUSH_NOTIFY */
    bypassFlushNotify: Option<bool>,
    /** `get_operation_latency()` as the bypassing unit reports it this cycle */
    operationLatency: nat,
    /** `is_stall(instr)` for the instruction read this cycle */
    isStall: bool)

  /** A state-changing call on the bypassing unit. */
  datatype BypassCall = Update | TraceNewInstr(instr: Instr) | HandleFlush

  /** The output ports of the stage. */
  datatype DecodePort =
    | BpUpdatePort | FlushFetchPort | FlushTargetPort | CommandPort(slot: Slot)
    | StallPort | StallDatapathPort | NotifyPort | DatapathPort

  /** One port write. */
  datatype DecodeWrite =
    | BpUpdate(update: BPInterface)
    | FlushFetch(flag: bool)
    | FlushTarget(target: Addr)
      /** `get_bypass_command(instr, slot, pathNumber)` written to the command port of `slot` */
    | Command(slot: Slot, instr: Instr, pathNumber: int)
    | Stall(flag: bool)
    | StallDatapath(instr: Instr)
    | Notify(instr: Instr)
    | Datapath(instr: Instr)
  {
    function Port(): DecodePort
    {
      match this
      case BpUpdate(_) => BpUpdatePort
      case FlushFetch(_) => FlushFetchPort
      case FlushTarget(_) => FlushTargetPort
      case Command(k, _, _) => CommandPort(k)
      case Stall(_) => StallPort
      case StallDatapath(_) => StallDatapathPort
      case Notify(_) => NotifyPort
      case Datapath(_) => DatapathPort
    }
  }

  /** How many of the writes go to port `p`. */
  function Count(ws: seq<DecodeWrite>, p: DecodePort): nat
  {
    if |ws| == 0 then 0 else (if ws[0].Port() == p then 1 else 0) + Count(ws[1..], p)
  }

  lemma {:induction false} CountAppend(a: seq<DecodeWrite>, b: seq<DecodeWrite>)
    ensures forall p :: Count(a + b, p) == Count(a, p) + Count(b, p)
    decreases |a|
  {
    if |a| == 0 {
      assert a + b == b;
    } else {
      assert (a + b)[1..] == a[1..] + b;
      CountAppend(a[1..], b);
    }
  }

  lemma CountUnit(w: DecodeWrite)
    ensures forall p :: Count([w], p) == if w.Port() == p then 1 else 0
  {
    assert [w][1..] == [];
  }

  /** Appending two writes adds one to each of their ports. */
  lemma AppendTwoCounts(ws: seq<DecodeWrite>, w1: DecodeWrite, w2: DecodeWrite)
    ensures forall p :: Count(ws + [w1, w2], p) ==
              Count(ws, p) + (if w1.Port() == p then 1 else 0) + (if w2.Port() == p then 1 else 0)
  {
    CountUnit(w1);
    CountUnit(w2);
    CountAppend([w1], [w2]);
    assert [w1, w2] == [w1] + [w2];
    CountAppend(ws, [w1, w2]);
  }

  /** `is_flush(cycle)`: a branch flush or a flush this stage sent to fetch. */
  predicate IsFlush(inp: DecodeInputs)
  {
    Asserted(inp.flush) || Asserted(inp.flushFetch)
  }

  /** `has_trap` */
  predicate HasTrap(inp: DecodeInputs)
  {
    Asserted(inp.trap)
  }

  /** Neither the fetch channel nor the replay channel is ready. */
  predicate IsBubble(inp: DecodeInputs)
  {
    inp.datapath.None? && inp.stallDatapath.None?
  }

  /** The calls every cycle makes on the bypassing unit before any early return. */
  function BypassCalls(inp: DecodeInputs): (calls: seq<BypassCall>)
    ensures |calls| >= 1 && calls[0] == Update
    ensures |calls| == 1 + (if inp.bypassNotify.Some? then 1 else 0)
                         + (if inp.bypassFlushNotify.Some? || HasTrap(inp) then 1 else 0)
    ensures HandleFlush in calls ==> calls[|calls| - 1] == HandleFlush
    ensures HandleFlush in calls <==> inp.bypassFlushNotify.Some? || HasTrap(inp)
    ensures inp.bypassNotify.Some? ==> TraceNewInstr(inp.bypassNotify.value) in calls
    ensures forall c :: c in calls && c.TraceNewInstr? ==> inp.bypassNotify == Some(c.instr)
  {
    [Update]
    + (if inp.bypassNotify.Some? then [TraceNewInstr(inp.bypassNotify.value)] else [])
    + (if inp.bypassFlushNotify.Some? || HasTrap(inp) then [HandleFlush] else [])
  }

  /** The instruction taken this cycle and whether it came from the replay channel. */
  datatype Fetched = Fetched(instr: Instr, fromStall: bool)

  /** `read_instr(cycle)`: the replay channel has priority over the fetch channel. */
  function ReadInstr(inp: DecodeInputs): (f: Fetched)
    requires !IsBubble(inp)
    ensures f.fromStall <==> inp.stallDatapath.Some?
    ensures f.fromStall ==> f.instr == inp.stallDatapath.value
    ensures !f.fromStall ==> f.instr == inp.datapath.value
  {
    if inp.stallDatapath.Some? then Fetched(inp.stallDatapath.value, true)
    else Fetched(inp.datapath.value, false)
  }

  /** `is_misprediction(instr, bp_data)` */
  function IsMisprediction(instr: Instr, bp: BPInterface): (r: bool)
    ensures (instr.isDirectJump || instr.isIndirectJump) && !bp.isTaken ==> r
    ensures instr.isLikelyBranch && !bp.isHit ==> r
    ensures bp.isTaken && (instr.isDirectJump || instr.isBranch) && bp.target != instr.decodedTarget ==> r
    ensures r && !(instr.isLikelyBranch && !bp.isHit) ==>
              if bp.isTaken then (instr.isDirectJump || instr.isBranch) && bp.target != instr.decodedTarget
              else instr.isDirectJump || instr.isIndirectJump
  {
    if (instr.isDirectJump || instr.isIndirectJump) && !bp.isTaken then true
    else if instr.isLikelyBranch && !bp.isHit then true
    else (instr.isDirectJump || instr.isBranch) && bp.target != instr.decodedTarget && bp.isTaken
  }

  /** The writes of the misprediction handling: predictor update, fetch flush, redirect target. */
  function RedirectWrites(f: Fetched, isStall: bool): (ws: seq<DecodeWrite>)
    ensures |ws| >= 1 && ws[0] == BpUpdate(f.instr.bpUpdate)
    ensures Count(ws, BpUpdatePort) == 1
    ensures Count(ws, FlushFetchPort) == (if isStall then 0 else 1)
    ensures Count(ws, FlushTargetPort) == (if f.fromStall then 0 else 1)
    ensures forall p :: p !in {BpUpdatePort, FlushFetchPort, FlushTargetPort} ==> Count(ws, p) == 0
    ensures FlushFetch(true) in ws <==> !isStall
    ensures FlushTarget(f.instr.actualDecodedTarget) in ws <==> !f.fromStall
  {
    var a := [BpUpdate(f.instr.bpUpdate)];
    var b := if !isStall then [FlushFetch(true)] else [];
    var c := if !f.fromStall then [FlushTarget(f.instr.actualDecodedTarget)] else [];
    CountUnit(BpUpdate(f.instr.bpUpdate));
    CountUnit(FlushFetch(true));
    CountUnit(FlushTarget(f.instr.actualDecodedTarget));
    CountAppend(a, b);
    CountAppend(a + b, c);
    a + b + c
  }

  /** `set_registers()`: each flag says whether any table marks its slot in flight. */
  function SetRegisters(s: DecodeState): (s': DecodeState)
    ensures forall k: Slot :: s'.IsRegister(k) == AnyInFlight(s.tables, k)
    ensures s'.(isRegister1 := s.isRegister1, isRegister2 := s.isRegister2) == s
  {
    s.(isRegister1 := AnyInFlight(s.tables, 0), isRegister2 := AnyInFlight(s.tables, 1))
  }

  predicate BothSourcesNonZero(instr: Instr)
  {
    !IsZeroRegister(instr.Src(0)) && !IsZeroRegister(instr.Src(1))
  }

  /** Outcome of the operand/command part of a cycle that does not stall. */
  datatype Issued = Issued(state: DecodeState, instr: Instr, rfReads: seq<Slot>, commands: seq<DecodeWrite>)

  /** Operand values and alu number are the only things issuing may change in the instruction. */
  predicate ReadsApplied(instr: Instr, rf: RegFile, r: Issued)
  {
    && SameButOperandsAndAlu(instr, r.instr)
    && (forall k: Slot :: k in r.rfReads ==> r.instr.VSrc(k) == rf(instr.Src(k)))
    && (forall k: Slot :: k !in r.rfReads ==> r.instr.VSrc(k) == instr.VSrc(k))
  }

  /**
   Lines 145-182, once the flags and path records are fresh: pick an alu
   number, possibly read one source from the register file, and send one
   bypass command per source slot.
   */
  function IssueWithRecords(s: DecodeState, instr: Instr, rf: RegFile): (r: Issued)
    requires s.isRegister1 <==> s.register1.pathNumber != NO_PATH
    requires s.isRegister2 <==> s.register2.pathNumber != NO_PATH
    ensures ReadsApplied(instr, rf, r)
    ensures r.state == s.(aluNumberDecoder := r.state.aluNumberDecoder)
    ensures r.commands == [Command(0, r.instr, s.register1.pathNumber),
                           Command(1, r.instr, s.register2.pathNumber)]
    // Some source in flight: the alu number comes from the first slot in flight.
    ensures s.isRegister1 || s.isRegister2 ==>
              && r.rfReads == []
              && r.instr.aluNumber == (if s.isRegister1 then s.register1.valueAlu else s.register2.valueAlu)
              && r.state.aluNumberDecoder == r.instr.aluNumber
    // Neither in flight: the `instruction` fields of the records decide a register-file read.
    ensures !s.isRegister1 && !s.isRegister2 ==>
              && r.rfReads == (if instr.Src(0) == instr.Src(1) then []
                               else if s.register1.instruction > 1 then [0]
                               else if s.register2.instruction > 1 then [1]
                               else [])
              && r.instr.aluNumber == (if instr.Src(0) == instr.Src(1) then instr.aluNumber
                                       else if s.register1.instruction > 1 then s.register1.valueAlu
                                       else if s.register2.instruction > 1 then s.register2.valueAlu
                                       else instr.aluNumber)
              && r.state.aluNumberDecoder == (if instr.Src(0) == instr.Src(1) then s.aluNumberDecoder
                                              else if s.register1.instruction > 1 then s.register1.valueAlu
                                              else if s.register2.instruction > 1 then s.register2.valueAlu
                                              else s.aluNumberDecoder)
  {
    var r1 := s.register1;
    var r2 := s.register2;
    if s.isRegister1 || s.isRegister2 then
      var alu := if s.isRegister1 then r1.valueAlu else r2.valueAlu;
      var i := instr.(aluNumber := alu);
      Issued(s.(aluNumberDecoder := alu), i, [],
             [Command(0, i, r1.pathNumber), Command(1, i, r2.pathNumber)])
    else if instr.Src(0) != instr.Src(1) then
      if r1.instruction > 1 then
        var i := instr.(aluNumber := r1.valueAlu).ReadSource(rf, 0);
        Issued(s.(aluNumberDecoder := r1.valueAlu), i, [0],
               [Command(0, i, r1.pathNumber), Command(1, i, r2.pathNumber)])
      else if r2.instruction > 1 then
        var i := instr.(aluNumber := r2.valueAlu).ReadSource(rf, 1);
        Issued(s.(aluNumberDecoder := r2.valueAlu), i, [1],
               [Command(0, i, r1.pathNumber), Command(1, i, r2.pathNumber)])
      else
        Issued(s, instr, [], [Command(0, instr, r1.pathNumber), Command(1, instr, r2.pathNumber)])
    else
      // Both paths are NO_PATH here, so taking register 2's path for both slots changes nothing.
      Issued(s, instr, [], [Command(0, instr, r2.pathNumber), Command(1, instr, r2.pathNumber)])
  }

  /**
   The branch of `clock` for two non-zero sources: refresh the in-flight flags
   (`set_registers`) and both path records (`get_path`), then issue.
   */
  function IssueWithPaths(s: DecodeState, instr: Instr, rf: RegFile): (r: Issued)
    ensures ReadsApplied(instr, rf, r)
    ensures r.state.numJumps == s.numJumps && r.state.numMispredictions == s.numMispredictions
    ensures r.state.tables == s.tables
    ensures forall k: Slot :: r.state.IsRegister(k) == AnyInFlight(s.tables, k)
    ensures r.state.register1 == GetPath(s.tables, 0, s.register1)
    ensures r.state.register2 == GetPath(s.tables, 1, s.register2)
    ensures r.commands == [Command(0, r.instr, r.state.register1.pathNumber),
                           Command(1, r.instr, r.state.register2.pathNumber)]
    ensures r.state.isRegister1 || r.state.isRegister2 ==>
              && r.rfReads == []
              && r.instr.aluNumber == (if r.state.isRegister1 then r.state.register1.valueAlu
                                       else r.state.register2.valueAlu)
              && r.state.aluNumberDecoder == r.instr.aluNumber
    // Neither in flight: the `instruction` fields left by earlier cycles decide a register-file read.
    ensures !r.state.isRegister1 && !r.state.isRegister2 ==>
              && r.state.register1.instruction == s.register1.instruction
              && r.state.register2.instruction == s.register2.instruction
              && r.rfReads == (if instr.Src(0) == instr.Src(1) then []
                               else if s.register1.instruction > 1 then [0]
                               else if s.register2.instruction > 1 then [1]
                               else [])
              && r.instr.aluNumber == (if instr.Src(0) == instr.Src(1) then instr.aluNumber
                                       else if s.register1.instruction > 1 then s.register1.valueAlu
                                       else if s.register2.instruction > 1 then s.register2.valueAlu
                                       else instr.aluNumber)
              && r.state.aluNumberDecoder == (if instr.Src(0) == instr.Src(1) then s.aluNumberDecoder
                                              else if s.register1.instruction > 1 then s.register1.valueAlu
                                              else if s.register2.instruction > 1 then s.register2.valueAlu
                                              else s.aluNumberDecoder)
  {
    var s1 := SetRegisters(s);
    var s2 := s1.(register1 := GetPath(s.tables, 0, s.register1), register2 := GetPath(s.tables, 1, s.register2));
    IssueWithRecords(s2, instr, rf)
  }

  /**
   The branch of `clock` when some source is the zero register: no command is
   sent, the alu number becomes 0, and a slot is read from the register file
   when its STORED flag (left by the last `set_registers` call) is false.
   */
  function IssueFromRegisterFile(s: DecodeState, instr: Instr, rf: RegFile): (r: Issued)
    ensures ReadsApplied(instr, rf, r)
    ensures r.commands == []
    ensures r.instr.aluNumber == 0
    ensures r.state == s.(aluNumberDecoder := 0)
    ensures forall k: Slot :: k in r.rfReads <==> !s.IsRegister(k)
  {
    var i1 := if !s.isRegister1 then instr.ReadSource(rf, 0) else instr;
    var i2 := if !s.isRegister2 then i1.ReadSource(rf, 1) else i1;
    var readSlots: seq<Slot> := (if !s.isRegister1 then [0] else []) + (if !s.isRegister2 then [1] else []);
    Issued(s.(aluNumberDecoder := 0), i2.(aluNumber := 0), readSlots, [])
  }

  /** What `clock` does when the bypassing unit reports an operation latency of at most one. */
  function Issue(s: DecodeState, instr: Instr, rf: RegFile): (r: Issued)
    ensures ReadsApplied(instr, rf, r)
    ensures r.state.numJumps == s.numJumps && r.state.numMispredictions == s.numMispredictions
    ensures r.state.tables == s.tables
    ensures s.Valid() ==> r.state.Valid()
    ensures forall p :: p !in {CommandPort(0), CommandPort(1)} ==> Count(r.commands, p) == 0
    ensures Count(r.commands, CommandPort(0)) == Count(r.commands, CommandPort(1)) ==
              (if BothSourcesNonZero(instr) then 1 else 0)
    // Some source is the zero register: the STORED flags decide the reads, and no command is sent.
    ensures !BothSourcesNonZero(instr) ==>
              && r.commands == []
              && r.instr.aluNumber == 0
              && r.state == s.(aluNumberDecoder := 0)
              && (forall k: Slot :: k in r.rfReads <==> !s.IsRegister(k))
    // Both sources non-zero: flags and records are refreshed from the tables ...
    ensures BothSourcesNonZero(instr) ==>
              && (forall k: Slot :: r.state.IsRegister(k) == AnyInFlight(s.tables, k))
              && r.state.register1 == GetPath(s.tables, 0, s.register1)
              && r.state.register2 == GetPath(s.tables, 1, s.register2)
              && r.commands == [Command(0, r.instr, GetPath(s.tables, 0, s.register1).pathNumber),
                                Command(1, r.instr, GetPath(s.tables, 1, s.register2).pathNumber)]
    // ... and with a source in flight, the first slot in flight supplies the alu number ...
    ensures BothSourcesNonZero(instr) && (AnyInFlight(s.tables, 0) || AnyInFlight(s.tables, 1)) ==>
              && r.rfReads == []
              && r.instr.aluNumber == (if AnyInFlight(s.tables, 0) then GetPath(s.tables, 0, s.register1).valueAlu
                                       else GetPath(s.tables, 1, s.register2).valueAlu)
              && r.state.aluNumberDecoder == r.instr.aluNumber
    // ... while with neither in flight, each slot's OWN stale record decides the read and the alu number.
    ensures BothSourcesNonZero(instr) && !AnyInFlight(s.tables, 0) && !AnyInFlight(s.tables, 1) ==>
              && r.rfReads == (if instr.Src(0) == instr.Src(1) then []
                               else if s.register1.instruction > 1 then [0]
                               else if s.register2.instruction > 1 then [1]
                               else [])
              && r.instr.aluNumber == (if instr.Src(0) == instr.Src(1) then instr.aluNumber
                                       else if s.register1.instruction > 1 then s.register1.valueAlu
                                       else if s.register2.instruction > 1 then s.register2.valueAlu
                                       else instr.aluNumber)
              && r.state.aluNumberDecoder == (if instr.Src(0) == instr.Src(1) then s.aluNumberDecoder
                                              else if s.register1.instruction > 1 then s.register1.valueAlu
                                              else if s.register2.instruction > 1 then s.register2.valueAlu
                                              else s.aluNumberDecoder)
  {
    if BothSourcesNonZero(instr) then
      var r := IssueWithPaths(s, instr, rf);
      CountUnit(r.commands[0]);
      CountUnit(r.commands[1]);
      CountAppend([r.commands[0]], [r.commands[1]]);
      assert r.commands == [r.commands[0]] + [r.commands[1]];
      r
    else
      IssueFromRegisterFile(s, instr, rf)
  }

  /** Everything one call of `clock` produces. */
  datatype DecodeStep = DecodeStep(
    state: DecodeState,
    calls: seq<BypassCall>,
    rfReads: seq<Slot>,
    writes: seq<DecodeWrite>)

  /** The stage wrote a stall this cycle. */
  predicate Stalled(ws: seq<DecodeWrite>)
  {
    Count(ws, StallPort) > 0
  }

  /** The stage passed an instruction on to execute this cycle. */
  predicate Committed(ws: seq<DecodeWrite>)
  {
    Count(ws, DatapathPort) > 0
  }

  /** The counters after reading `f`, and the writes of its misprediction handling (lines 104-126). */
  datatype Front = Front(state: DecodeState, redirect: seq<DecodeWrite>)

  function HandleMisprediction(s: DecodeState, f: Fetched, isStall: bool): (r: Front)
    ensures r.state.numJumps == (if f.instr.isJump then Inc64(s.numJumps) else s.numJumps)
    ensures r.state.numMispredictions ==
              (if IsMisprediction(f.instr, f.instr.bpData) then Inc64(s.numMispredictions) else s.numMispredictions)
    ensures r.state == s.(numJumps := r.state.numJumps, numMispredictions := r.state.numMispredictions)
    ensures IsMisprediction(f.instr, f.instr.bpData) ==> r.redirect == RedirectWrites(f, isStall)
    ensures !IsMisprediction(f.instr, f.instr.bpData) ==> r.redirect == []
  {
    var misp := IsMisprediction(f.instr, f.instr.bpData);
    Front(s.(numJumps := if f.instr.isJump then Inc64(s.numJumps) else s.numJumps,
             numMispredictions := if misp then Inc64(s.numMispredictions) else s.numMispredictions),
          if misp then RedirectWrites(f, isStall) else [])
  }

  /** Only the misprediction ports are written by `ws`. */
  ghost predicate OnlyRedirectPorts(ws: seq<DecodeWrite>)
  {
    forall p :: p !in {BpUpdatePort, FlushFetchPort, FlushTargetPort} ==> Count(ws, p) == 0
  }

  /** The data-hazard branch (lines 194-201): stall fetch and put the instruction on the replay channel. */
  function StallCycle(s: DecodeState, instr: Instr, redirect: seq<DecodeWrite>): (step: DecodeStep)
    requires OnlyRedirectPorts(redirect)
    ensures step.state == s && step.calls == [] && step.rfReads == []
    ensures |step.writes| == |redirect| + 2
    ensures step.writes[..|redirect|] == redirect
    ensures step.writes[|redirect|..] == [Stall(true), StallDatapath(instr)]
    ensures forall p :: p in {BpUpdatePort, FlushFetchPort, FlushTargetPort} ==> Count(step.writes, p) == Count(redirect, p)
    ensures Count(step.writes, StallPort) == 1 && Count(step.writes, StallDatapathPort) == 1
    ensures Count(step.writes, DatapathPort) == 0 && Count(step.writes, NotifyPort) == 0
    ensures Count(step.writes, CommandPort(0)) == 0 && Count(step.writes, CommandPort(1)) == 0
  {
    var tail := [Stall(true), StallDatapath(instr)];
    AppendTwoCounts(redirect, Stall(true), StallDatapath(instr));
    assert (redirect + tail)[..|redirect|] == redirect;
    assert (redirect + tail)[|redirect|..] == tail;
    DecodeStep(s, [], [], redirect + tail)
  }

  /** Port counts of a committing cycle's writes: redirect writes, then commands, then notify and execute. */
  lemma CommitWritesCounts(redirect: seq<DecodeWrite>, commands: seq<DecodeWrite>, instr: Instr, n: nat)
    requires OnlyRedirectPorts(redirect)
    requires forall p :: p !in {CommandPort(0), CommandPort(1)} ==> Count(commands, p) == 0
    requires Count(commands, CommandPort(0)) == n && Count(commands, CommandPort(1)) == n
    ensures var ws := redirect + commands + [Notify(instr), Datapath(instr)];
            && (forall p :: p in {BpUpdatePort, FlushFetchPort, FlushTargetPort} ==> Count(ws, p) == Count(redirect, p))
            && Count(ws, NotifyPort) == 1 && Count(ws, DatapathPort) == 1
            && Count(ws, StallPort) == 0 && Count(ws, StallDatapathPort) == 0
            && Count(ws, CommandPort(0)) == n && Count(ws, CommandPort(1)) == n
  {
    AppendTwoCounts(redirect + commands, Notify(instr), Datapath(instr));
    CountAppend(redirect, commands);
  }

  /** The issue branch (lines 128-193, 203-209): operands, commands, then notify and execute. */
  function CommitCycle(s: DecodeState, instr: Instr, redirect: seq<DecodeWrite>, rf: RegFile): (step: DecodeStep)
    requires OnlyRedirectPorts(redirect)
    ensures step.calls == []
    ensures step.state == Issue(s, instr, rf).state && step.rfReads == Issue(s, instr, rf).rfReads
    ensures |step.writes| >= |redirect| + 2
    ensures step.writes[..|redirect|] == redirect
    ensures step.writes == redirect + Issue(s, instr, rf).commands + [Notify(Issue(s, instr, rf).instr), Datapath(Issue(s, instr, rf).instr)]
    ensures forall p :: p in {BpUpdatePort, FlushFetchPort, FlushTargetPort} ==> Count(step.writes, p) == Count(redirect, p)
    ensures step.writes[|step.writes| - 2] == Notify(Issue(s, instr, rf).instr)
    ensures step.writes[|step.writes| - 1] == Datapath(Issue(s, instr, rf).instr)
    ensures Count(step.writes, NotifyPort) == 1 && Count(step.writes, DatapathPort) == 1
    ensures Count(step.writes, StallPort) == 0 && Count(step.writes, StallDatapathPort) == 0
    ensures Count(step.writes, CommandPort(0)) == Count(step.writes, CommandPort(1)) ==
              (if BothSourcesNonZero(instr) then 1 else 0)
  {
    var issued := Issue(s, instr, rf);
    var ws := redirect + issued.commands + [Notify(issued.instr), Datapath(issued.instr)];
    CommitWritesCounts(redirect, issued.commands, issued.instr, if BothSourcesNonZero(instr) then 1 else 0);
    assert ws[..|redirect|] == redirect;
    DecodeStep(issued.state, [], issued.rfReads, ws)
  }

  /** A cycle that has an instruction to work on (no flush, no trap, no bubble), from `read_instr` on. */
  function Process(s: DecodeState, f: Fetched, inp: DecodeInputs, rf: RegFile): (step: DecodeStep)
    ensures step.calls == []
    ensures step.state.numJumps == (if f.instr.isJump then Inc64(s.numJumps) else s.numJumps)
    ensures step.state.numMispredictions ==
              (if IsMisprediction(f.instr, f.instr.bpData) then Inc64(s.numMispredictions) else s.numMispredictions)
    ensures step.state.tables == s.tables
    ensures s.Valid() ==> step.state.Valid()
    // Misprediction handling
    ensures Count(step.writes, BpUpdatePort) == (if IsMisprediction(f.instr, f.instr.bpData) then 1 else 0)
    ensures Count(step.writes, FlushFetchPort) ==
              (if IsMisprediction(f.instr, f.instr.bpData) && !inp.isStall then 1 else 0)
    ensures Count(step.writes, FlushTargetPort) ==
              (if IsMisprediction(f.instr, f.instr.bpData) && !f.fromStall then 1 else 0)
    ensures Stalled(step.writes) != Committed(step.writes)
  {
    var front := HandleMisprediction(s, f, inp.isStall);
    if inp.operationLatency <= 1 then
      CommitCycle(front.state, f.instr, front.redirect, rf)
    else
      StallCycle(front.state, f.instr, front.redirect)
  }

  /** `clock(cycle)`: one cycle of the decode stage. */
  function Clock(s: DecodeState, inp: DecodeInputs, rf: RegFile): (step: DecodeStep)
    ensures step.calls == BypassCalls(inp)
    ensures step.state.tables == s.tables
    ensures s.Valid() ==> step.state.Valid()
    ensures IsFlush(inp) || HasTrap(inp) || IsBubble(inp) ==>
              step.state == s && step.writes == [] && step.rfReads == []
    ensures !(IsFlush(inp) || HasTrap(inp) || IsBubble(inp)) ==>
              var p := Process(s, ReadInstr(inp), inp, rf);
              step.state == p.state && step.rfReads == p.rfReads && step.writes == p.writes
  {
    var calls := BypassCalls(inp);
    if IsFlush(inp) || HasTrap(inp) then
      DecodeStep(s, calls, [], [])
    else if IsBubble(inp) then
      DecodeStep(s, calls, [], [])
    else
      Process(s, ReadInstr(inp), inp, rf).(calls := calls)
  }
}

=== FILE: decode_lemmas.dfy ===
/**
 Properties of the decode stage model: what a cycle emits under each
 condition, the priority encoder against a first-producer-wins reference,
 and the behaviours the source code has as written (dead arms in
 `get_path`, records and flags left over from earlier cycles, replayed
 instructions counted again).
 */
module DecodeLemmas {
  import opened Common
  import opened Instruction
  import opened DecodePaths
  import opened Decode

  /** A cycle that reaches `read_instr`: no flush, no trap, and something to read. */
  predicate Processes(inp: DecodeInputs)
  {
    !IsFlush(inp) && !HasTrap(inp) && !IsBubble(inp)
  }

  // ---------------------------------------------------------------------------
  // is_misprediction

  /** A jump whose target comes from a register is never flagged when predicted taken (unless a likely branch missed). */
  lemma IndirectJumpPredictedTakenNotFlagged(instr: Instr, bp: BPInterface)
    requires instr.isIndirectJump && !instr.isDirectJump && !instr.isBranch
    requires bp.isTaken
    requires !(instr.isLikelyBranch && !bp.isHit)
    ensures !IsMisprediction(instr, bp)
  {
  }

  /** An instruction that is neither a jump, a branch nor a likely branch is never flagged. */
  lemma NonControlNeverFlagged(instr: Instr, bp: BPInterface)
    requires !instr.isDirectJump && !instr.isIndirectJump && !instr.isBranch && !instr.isLikelyBranch
    ensures !IsMisprediction(instr, bp)
  {
  }

  /** A direct jump or branch predicted taken to its decoded target is not flagged (unless a likely branch missed). */
  lemma CorrectTakenPredictionNotFlagged(instr: Instr, bp: BPInterface)
    requires bp.isTaken && bp.target == instr.decodedTarget
    requires !(instr.isLikelyBranch && !bp.isHit)
    ensures !IsMisprediction(instr, bp)
  {
  }

  // ---------------------------------------------------------------------------
  // get_path / set_registers

  /**
   `get_path` is a first-producer-wins scan over the tables in the order
   decode-to-execute, execute-to-mem, execute-to-late-alu,
   late-alu-to-writeback, mem-to-writeback.
   */
  lemma {:induction false} GetPathIsFirstProducerWins(t: StageTables, reg: Slot, r: Registers)
    ensures GetPath(t, reg, r) ==
              match FirstProducer(t, reg, ScanOrder)
              case Some(st) => ForwardingFrom(st)
              case None => r.(pathNumber := NO_PATH)
  {
    var o := ScanOrder;
    assert o[1..] == [ExecuteToMem, ExecuteToLateAlu, LateAluToWriteback, MemToWriteback];
    assert o[1..][1..] == [ExecuteToLateAlu, LateAluToWriteback, MemToWriteback];
    assert o[1..][1..][1..] == [LateAluToWriteback, MemToWriteback];
    assert o[1..][1..][1..][1..] == [MemToWriteback];
    assert o[1..][1..][1..][1..][1..] == [];
    if t.decodeToExecute.InFlight(reg) {
      assert FirstProducer(t, reg, o) == Some(DecodeToExecute);
    } else if t.executeToMem.InFlight(reg) {
      assert FirstProducer(t, reg, o) == FirstProducer(t, reg, o[1..]) == Some(ExecuteToMem);
    } else if t.executeToLateAlu.InFlight(reg) {
      assert FirstProducer(t, reg, o[1..]) == FirstProducer(t, reg, o[1..][1..]) == Some(ExecuteToLateAlu);
    } else if t.lateAluToWriteback.InFlight(reg) {
      assert FirstProducer(t, reg, o[1..][1..]) == FirstProducer(t, reg, o[1..][1..][1..]);
      assert FirstProducer(t, reg, o[1..][1..][1..]) == Some(LateAluToWriteback);
    } else {
      assert FirstProducer(t, reg, o[1..][1..]) == FirstProducer(t, reg, o[1..][1..][1..]);
      assert FirstProducer(t, reg, o[1..][1..][1..]) == FirstProducer(t, reg, o[1..][1..][1..][1..]);
    }
  }

  /** Since the arms that test the alu number are dead, `get_path` never depends on any table's alu number. */
  lemma AluNumbersNeverConsulted(t: StageTables, t': StageTables, reg: Slot, r: Registers)
    requires t'.decodeToExecute.(aluNumber := t.decodeToExecute.aluNumber) == t.decodeToExecute
    requires t'.executeToMem.(aluNumber := t.executeToMem.aluNumber) == t.executeToMem
    requires t'.executeToLateAlu.(aluNumber := t.executeToLateAlu.aluNumber) == t.executeToLateAlu
    requires t'.lateAluToWriteback.(aluNumber := t.lateAluToWriteback.aluNumber) == t.lateAluToWriteback
    requires t'.memToWriteback.(aluNumber := t.memToWriteback.aluNumber) == t.memToWriteback
    ensures GetPath(t', reg, r) == GetPath(t, reg, r)
  {
  }

  /** The flag `set_registers` stores for a slot is true exactly when `get_path` finds a path for it. */
  lemma SetRegistersAgreesWithGetPath(s: DecodeState, k: Slot, r: Registers)
    ensures SetRegisters(s).IsRegister(k) <==> GetPath(s.tables, k, r).pathNumber != NO_PATH
  {
  }

  /**
   With no producer anywhere, the record still carries the alu number and
   instruction count of an earlier cycle: here a record left as (path 1, alu 1,
   instruction 2) makes the next two-source instruction, whose sources are in
   no table, read source 1 from the register file and take alu number 1.
   */
  lemma StaleRecordDrivesRegisterFileRead()
    ensures var s := Init().(register1 := Registers(1, 1, 2));
            var instr := Instr(false, false, false, false, false, false, 0, 0,
                               BPInterface(false, false, 0), BPInterface(false, false, 0),
                               3, 4, 0, 0, 0, 0);
            var r := Issue(s, instr, (x: RegId) => 7);
            && !AnyInFlight(s.tables, 0) && !AnyInFlight(s.tables, 1)
            && r.rfReads == [0]
            && r.instr.aluNumber == 1
            && r.state.register1 == Registers(NO_PATH, 1, 2)
  {
  }

  /**
   When some source is the zero register, `set_registers` is not called and
   the register-file reads follow the flags an EARLIER cycle stored: two states
   with the same tables that differ only in the stored flag of slot 0 read
   the register file differently for the same instruction.
   */
  lemma StoredFlagsDecideRegisterFileReads()
    ensures var instr := Instr(false, false, false, false, false, false, 0, 0,
                               BPInterface(false, false, 0), BPInterface(false, false, 0),
                               0, 4, 0, 0, 0, 0);
            var rf := (x: RegId) => 7;
            var clean := Init();
            var stale := Init().(isRegister1 := true);
            && clean.tables == stale.tables
            && Issue(clean, instr, rf).rfReads == [0, 1]
            && Issue(stale, instr, rf).rfReads == [1]
  {
  }

  // ---------------------------------------------------------------------------
  // clock

  /** A flush or trap cycle: `handle_flush` runs exactly when a trap or a flush notification is present, nothing else happens. */
  lemma FlushCycleEmitsNothing(s: DecodeState, inp: DecodeInputs, rf: RegFile)
    requires IsFlush(inp) || HasTrap(inp)
    ensures var step := Clock(s, inp, rf);
            && step.state == s && step.writes == [] && step.rfReads == []
            && (HandleFlush in step.calls <==> HasTrap(inp) || inp.bypassFlushNotify.Some?)
  {
  }

  /**
   `is_flush`: past a trap and a bubble, the cycle stops early, writing
   nothing, exactly when the branch flush port or this stage's own fetch-flush
   port carries `true`.
   */
  lemma FlushPortsDecideEarlyExit(s: DecodeState, inp: DecodeInputs, rf: RegFile)
    requires !HasTrap(inp) && !IsBubble(inp)
    ensures Clock(s, inp, rf).writes == [] <==> Asserted(inp.flush) || Asserted(inp.flushFetch)
  {
    if !IsFlush(inp) {
      var step := Clock(s, inp, rf);
      assert Stalled(step.writes) || Committed(step.writes);
    }
  }

  /** A trap stops the cycle: nothing is written, the state is kept, and the bypassing unit is flushed. */
  lemma TrapStopsCycle(s: DecodeState, inp: DecodeInputs, rf: RegFile)
    requires HasTrap(inp)
    ensures var step := Clock(s, inp, rf);
            step.writes == [] && step.rfReads == [] && step.state == s
            && step.calls[|step.calls| - 1] == HandleFlush
  {
  }

  /** A bubble cycle (neither input ready) changes nothing and writes nothing. */
  lemma BubbleCycleEmitsNothing(s: DecodeState, inp: DecodeInputs, rf: RegFile)
    requires IsBubble(inp)
    ensures var step := Clock(s, inp, rf);
            step.state == s && step.writes == [] && step.rfReads == []
  {
  }

  /** The counters move only on a processing cycle, by one each at most, and only for the instruction read. */
  lemma CountersOnProcessingCycle(s: DecodeState, inp: DecodeInputs, rf: RegFile)
    requires Processes(inp)
    ensures var step := Clock(s, inp, rf);
            var instr := ReadInstr(inp).instr;
            && (step.state.numJumps == Inc64(s.numJumps) <==> instr.isJump)
            && (step.state.numMispredictions == Inc64(s.numMispredictions) <==>
                  IsMisprediction(instr, instr.bpData))
            && (!instr.isJump ==> step.state.numJumps == s.numJumps)
            && (!IsMisprediction(instr, instr.bpData) ==> step.state.numMispredictions == s.numMispredictions)
  {
  }

  /** What the counter getters report after a cycle: one more jump exactly for a processed jump, likewise for mispredictions. */
  lemma GettersAfterCycle(s: DecodeState, inp: DecodeInputs, rf: RegFile)
    ensures var s' := Clock(s, inp, rf).state;
            && JumpsNum(s') == (if Processes(inp) && ReadInstr(inp).instr.isJump then Inc64(JumpsNum(s)) else JumpsNum(s))
            && MispredictionsNum(s') ==
                 (if Processes(inp) && IsMisprediction(ReadInstr(inp).instr, ReadInstr(inp).instr.bpData)
                  then Inc64(MispredictionsNum(s)) else MispredictionsNum(s))
  {
  }

  /** Misprediction writes: one predictor update, fetch flush unless stalled, redirect unless replayed. */
  lemma MispredictionWrites(s: DecodeState, inp: DecodeInputs, rf: RegFile)
    requires Processes(inp)
    ensures var step := Clock(s, inp, rf);
            var f := ReadInstr(inp);
            var misp := IsMisprediction(f.instr, f.instr.bpData);
            && Count(step.writes, BpUpdatePort) == (if misp then 1 else 0)
            && Count(step.writes, FlushFetchPort) == (if misp && !inp.isStall then 1 else 0)
            && Count(step.writes, FlushTargetPort) == (if misp && !f.fromStall then 1 else 0)
  {
  }

  /** On a misprediction the predictor update is the cycle's first write. */
  lemma PredictorUpdateWrittenFirst(s: DecodeState, inp: DecodeInputs, rf: RegFile)
    requires Processes(inp)
    requires var i := ReadInstr(inp).instr; IsMisprediction(i, i.bpData)
    ensures var step := Clock(s, inp, rf);
            |step.writes| > 0 && step.writes[0] == BpUpdate(ReadInstr(inp).instr.bpUpdate)
  {
    var f := ReadInstr(inp);
    var front := HandleMisprediction(s, f, inp.isStall);
    assert front.redirect[0] == BpUpdate(f.instr.bpUpdate);
    if inp.operationLatency <= 1 {
      var c := CommitCycle(front.state, f.instr, front.redirect, rf);
      assert Clock(s, inp, rf).writes == c.writes;
      assert c.writes[..|front.redirect|] == front.redirect;
      assert c.writes[0] == front.redirect[0];
    } else {
      var c := StallCycle(front.state, f.instr, front.redirect);
      assert Clock(s, inp, rf).writes == c.writes;
      assert c.writes[..|front.redirect|] == front.redirect;
      assert c.writes[0] == front.redirect[0];
    }
  }

  /** Data hazard: stall fetch and put the same instruction on the replay channel; nothing goes on. */
  lemma StallCycleOutcome(s: DecodeState, inp: DecodeInputs, rf: RegFile)
    requires Processes(inp) && inp.operationLatency > 1
    ensures var step := Clock(s, inp, rf);
            var instr := ReadInstr(inp).instr;
            && |step.writes| >= 2
            && step.writes[|step.writes| - 2..] == [Stall(true), StallDatapath(instr)]
            && Count(step.writes, StallPort) == 1 && Count(step.writes, StallDatapathPort) == 1
            && Count(step.writes, DatapathPort) == 0 && Count(step.writes, NotifyPort) == 0
            && Count(step.writes, CommandPort(0)) == 0 && Count(step.writes, CommandPort(1)) == 0
            && step.rfReads == []
            && step.state == s.(numJumps := step.state.numJumps, numMispredictions := step.state.numMispredictions)
  {
  }

  /** No hazard: the issued instruction, the one read with operands and alu number filled in, goes to the bypassing unit and to execute. */
  lemma CommitCycleOutcome(s: DecodeState, inp: DecodeInputs, rf: RegFile)
    requires Processes(inp) && inp.operationLatency <= 1
    ensures var step := Clock(s, inp, rf);
            && |step.writes| >= 2
            && step.writes[|step.writes| - 2].Notify?
            && step.writes[|step.writes| - 1] == Datapath(step.writes[|step.writes| - 2].instr)
            && SameButOperandsAndAlu(ReadInstr(inp).instr, step.writes[|step.writes| - 1].instr)
  {
    var f := ReadInstr(inp);
    var front := HandleMisprediction(s, f, inp.isStall);
    var issued := Issue(front.state, f.instr, rf);
    var ws := Clock(s, inp, rf).writes;
    CommitWrites(s, inp, rf);
    assert ws[|ws| - 2] == Notify(issued.instr) && ws[|ws| - 1] == Datapath(issued.instr);
    assert SameButOperandsAndAlu(f.instr, issued.instr);
  }

  /** No hazard: one notify and one execute write, no stall, and one command per slot exactly when both sources are non-zero. */
  lemma CommitCycleCounts(s: DecodeState, inp: DecodeInputs, rf: RegFile)
    requires Processes(inp) && inp.operationLatency <= 1
    ensures var step := Clock(s, inp, rf);
            var instr := ReadInstr(inp).instr;
            && Count(step.writes, NotifyPort) == 1 && Count(step.writes, DatapathPort) == 1
            && Count(step.writes, StallPort) == 0 && Count(step.writes, StallDatapathPort) == 0
            && Count(step.writes, CommandPort(0)) == (if BothSourcesNonZero(instr) then 1 else 0)
            && Count(step.writes, CommandPort(1)) == (if BothSourcesNonZero(instr) then 1 else 0)
  {
    var f := ReadInstr(inp);
    var front := HandleMisprediction(s, f, inp.isStall);
    var c := CommitCycle(front.state, f.instr, front.redirect, rf);
    assert Clock(s, inp, rf).writes == c.writes;
  }

  /** A committing cycle writes the redirect writes, the issued commands, then notify and execute. */
  lemma CommitWrites(s: DecodeState, inp: DecodeInputs, rf: RegFile)
    requires Processes(inp) && inp.operationLatency <= 1
    ensures var f := ReadInstr(inp);
            var front := HandleMisprediction(s, f, inp.isStall);
            var issued := Issue(front.state, f.instr, rf);
            Clock(s, inp, rf).writes == front.redirect + issued.commands + [Notify(issued.instr), Datapath(issued.instr)]
  {
    var f := ReadInstr(inp);
    var front := HandleMisprediction(s, f, inp.isStall);
    assert Process(s, f, inp, rf) == CommitCycle(front.state, f.instr, front.redirect, rf);
  }

  /**
   No hazard and two non-zero sources: the command written for each slot
   carries the issued instruction and the path number `get_path` finds for
   that slot in the current tables, starting from the slot's own record.
   */
  lemma CommitCommandsCarryPaths(s: DecodeState, inp: DecodeInputs, rf: RegFile)
    requires Processes(inp) && inp.operationLatency <= 1 && BothSourcesNonZero(ReadInstr(inp).instr)
    ensures var step := Clock(s, inp, rf);
            && |step.writes| >= 1
            && var issued := step.writes[|step.writes| - 1].instr;
            && Command(0, issued, GetPath(s.tables, 0, s.register1).pathNumber) in step.writes
            && Command(1, issued, GetPath(s.tables, 1, s.register2).pathNumber) in step.writes
  {
    var f := ReadInstr(inp);
    var front := HandleMisprediction(s, f, inp.isStall);
    var issued := Issue(front.state, f.instr, rf);
    var ws := Clock(s, inp, rf).writes;
    CommitWrites(s, inp, rf);
    assert front.state.tables == s.tables && front.state.register1 == s.register1 && front.state.register2 == s.register2;
    assert issued.commands == [Command(0, issued.instr, GetPath(s.tables, 0, s.register1).pathNumber),
                               Command(1, issued.instr, GetPath(s.tables, 1, s.register2).pathNumber)];
    assert ws[|front.redirect|] == issued.commands[0];
    assert ws[|front.redirect| + 1] == issued.commands[1];
  }

  /** Every processing cycle ends in exactly one of stall or commit; flush and bubble cycles in neither. */
  lemma StallOrCommit(s: DecodeState, inp: DecodeInputs, rf: RegFile)
    ensures var step := Clock(s, inp, rf);
            if Processes(inp) then Stalled(step.writes) != Committed(step.writes)
            else !Stalled(step.writes) && !Committed(step.writes)
  {
  }

  /**
   A mispredicted instruction that stalls is counted, and reported to the
   predictor, again when it is replayed: the first cycle redirects fetch, the
   replay cycle does not, but both add a misprediction.
   */
  lemma ReplayedMispredictionCountedAgain(s: DecodeState, inp1: DecodeInputs, inp2: DecodeInputs, rf: RegFile)
    requires Processes(inp1) && inp1.stallDatapath.None? && inp1.operationLatency > 1 && inp1.isStall
    requires var i := inp1.datapath.value; IsMisprediction(i, i.bpData)
    requires !IsFlush(inp2) && !HasTrap(inp2) && inp2.stallDatapath == inp1.datapath
    requires s.numMispredictions + 2 < U64_LIMIT
    ensures var step1 := Clock(s, inp1, rf);
            var step2 := Clock(step1.state, inp2, rf);
            && step2.state.numMispredictions == s.numMispredictions + 2
            && Count(step1.writes, FlushTargetPort) == 1
            && Count(step2.writes, FlushTargetPort) == 0
            && Count(step2.writes, BpUpdatePort) == 1
  {
  }
}

=== FILE: decode_paths.dfy ===
/**
 The decode stage's five "in flight" tables and the priority encoder that
 turns them into a forwarding path for one source slot (`get_path`), plus the
 in-flight test `set_registers` applies to each slot.

 Each table records, per SOURCE SLOT (0 or 1, not per register number),
 whether some instruction in that pipeline stage produces the value, and an
 alu number. The stage code never writes these tables; their contents are
 whatever the caller's state holds.
 */
module DecodePaths {
  import opened Common

  /** One stage table (`struct path`): `registers[2]` and `alu_number`, defaulting to false/false/0. */
  datatype PathTable = PathTable(inFlight0: bool, inFlight1: bool, aluNumber: u8)
  {
    /** `registers[k]` */
    predicate InFlight(k: Slot)
    {
      if k == 0 then inFlight0 else inFlight1
    }
  }

  const EmptyTable := PathTable(false, false, 0)

  /** The five tables of the decode stage, named after the pipeline stage boundary they describe. */
  datatype StageTables = StageTables(
    decodeToExecute: PathTable,
    executeToLateAlu: PathTable,
    executeToMem: PathTable,
    lateAluToWriteback: PathTable,
    memToWriteback: PathTable)

  const EmptyTables := StageTables(EmptyTable, EmptyTable, EmptyTable, EmptyTable, EmptyTable)

  /**
   The record `get_path` fills in (`struct registers`), defaulting to 0/0/0.
   The source stores these as `int8`/`uint8`; only small constants are ever
   assigned, and `GetPath` proves they stay in range, so plain integers are used.
   */
  datatype Registers = Registers(pathNumber: int, valueAlu: int, instruction: int)

  const DefaultRegisters := Registers(0, 0, 0)

  /** Path number `get_path` stores when no stage holds a producer. */
  const NO_PATH: int := -1

  /** The ranges of the source's field types: `int8` path number, `uint8` alu and instruction. */
  predicate InRange(r: Registers)
  {
    -128 <= r.pathNumber < 128 && 0 <= r.valueAlu < 256 && 0 <= r.instruction < 256
  }

  /** The test of `set_registers` for one slot: does any of the five tables mark it in flight? */
  predicate AnyInFlight(t: StageTables, k: Slot)
  {
    || t.decodeToExecute.InFlight(k)
    || t.executeToLateAlu.InFlight(k)
    || t.executeToMem.InFlight(k)
    || t.lateAluToWriteback.InFlight(k)
    || t.memToWriteback.InFlight(k)
  }

  /**
   Which arm of the if-chain of `get_path` runs for slot `reg`, numbered 1 to 7
   in source order. Arms 2 and 3 repeat arm 1's condition with an extra
   conjunct, so they can never be reached.
   */
  function GetPathArm(t: StageTables, reg: Slot): (arm: int)
    ensures 1 <= arm <= 7
    ensures arm != 2 && arm != 3
    ensures arm == 7 <==> !AnyInFlight(t, reg)
  {
    if t.decodeToExecute.InFlight(reg) then 1
    else if t.decodeToExecute.InFlight(reg) && t.decodeToExecute.aluNumber == 0 then 2
    else if t.decodeToExecute.InFlight(reg) && t.decodeToExecute.aluNumber == 1 then 3
    else if t.executeToMem.InFlight(reg) then 4
    else if t.executeToLateAlu.InFlight(reg) then 5
    else if t.lateAluToWriteback.InFlight(reg) || t.memToWriteback.InFlight(reg) then 6
    else 7
  }

  /**
   `get_path(reg, r)`: overwrite the record `r` according to the arm that runs.
   When no table marks the slot, only the path number changes: `valueAlu` and
   `instruction` keep whatever an earlier call left in them.
   */
  function GetPath(t: StageTables, reg: Slot, r: Registers): (r': Registers)
    ensures r'.pathNumber == NO_PATH <==> !AnyInFlight(t, reg)
    ensures r'.pathNumber == NO_PATH ==> r'.valueAlu == r.valueAlu && r'.instruction == r.instruction
    ensures r'.pathNumber != NO_PATH ==> r'.pathNumber in {1, 2, 3, 5} && 0 <= r'.valueAlu <= 1 && 1 <= r'.instruction <= 2
    // Only the four reachable forwarding records occur; the dead arms' (1, 0, 1) and (5, 1, 2) never do.
    ensures r'.pathNumber != NO_PATH ==>
              r' in {Registers(1, 1, 2), Registers(2, 0, 1), Registers(5, 0, 1), Registers(3, 0, 1)}
    ensures InRange(r) ==> InRange(r')
  {
    match GetPathArm(t, reg)
    case 1 => Registers(1, 1, 2)
    case 2 => Registers(1, 0, 1)
    case 3 => Registers(5, 1, 2)
    case 4 => Registers(2, 0, 1)
    case 5 => Registers(5, 0, 1)
    case 6 => Registers(3, 0, 1)
    case _ => r.(pathNumber := NO_PATH)
  }

  // An independent statement of the same encoder: scan the tables in a fixed
  // order and let the first one that marks the slot decide the path.

  datatype Stage = DecodeToExecute | ExecuteToMem | ExecuteToLateAlu | LateAluToWriteback | MemToWriteback

  function TableOf(t: StageTables, st: Stage): PathTable
  {
    match st
    case DecodeToExecute => t.decodeToExecute
    case ExecuteToMem => t.executeToMem
    case ExecuteToLateAlu => t.executeToLateAlu
    case LateAluToWriteback => t.lateAluToWriteback
    case MemToWriteback => t.memToWriteback
  }

  /** The order in which `get_path` consults the tables. */
  const ScanOrder: seq<Stage> := [DecodeToExecute, ExecuteToMem, ExecuteToLateAlu, LateAluToWriteback, MemToWriteback]

  /** The forwarding record `get_path` produces when stage `st` is the first producer found. */
  function ForwardingFrom(st: Stage): Registers
  {
    match st
    case DecodeToExecute => Registers(1, 1, 2)
    case ExecuteToMem => Registers(2, 0, 1)
    case ExecuteToLateAlu => Registers(5, 0, 1)
    case LateAluToWriteback => Registers(3, 0, 1)
    case MemToWriteback => Registers(3, 0, 1)
  }

  /** The first stage of `order` whose table marks slot `reg`, if any. */
  function FirstProducer(t: StageTables, reg: Slot, order: seq<Stage>): (r: Option<Stage>)
    ensures r.Some? ==> r.value in order && TableOf(t, r.value).InFlight(reg)
    ensures r.None? <==> forall i :: 0 <= i < |order| ==> !TableOf(t, order[i]).InFlight(reg)
  {
    if |order| == 0 then None
    else if TableOf(t, order[0]).InFlight(reg) then Some(order[0])
    else FirstProducer(t, reg, order[1..])
  }

  /** The stage `FirstProducer` finds is the FIRST in the order whose table marks the slot. */
  lemma {:induction false} FirstProducerIsFirst(t: StageTables, reg: Slot, order: seq<Stage>)
    ensures var r := FirstProducer(t, reg, order);
            r.Some? ==> exists i :: 0 <= i < |order| && order[i] == r.value &&
                                   forall j :: 0 <= j < i ==> !TableOf(t, order[j]).InFlight(reg)
    decreases |order|
  {
    if |order| > 0 && !TableOf(t, order[0]).InFlight(reg) {
      FirstProducerIsFirst(t, reg, order[1..]);
      var r := FirstProducer(t, reg, order);
      if r.Some? {
        var i :| 0 <= i < |order[1..]| && order[1..][i] == r.value &&
                 forall j :: 0 <= j < i ==> !TableOf(t, order[1..][j]).InFlight(reg);
        assert order[i + 1] == r.value;
        forall j | 0 <= j < i + 1 ensures !TableOf(t, order[j]).InFlight(reg) {
          if j > 0 { assert order[j] == order[1..][j - 1]; }
        }
      }
    } else if |order| > 0 {
      assert order[0] == FirstProducer(t, reg, order).value;
    }
  }
}

=== FILE: instr.dfy ===
/**
 The in-flight instruction record (`PerfInstr<FuncInstr>`) as the two stages
 see it. Instruction-set semantics are external: the classifiers
 (`is_jump`, `is_long_arithmetic`, ...) are plain flags fixed at decode time,
 register contents are unbounded naturals whatever the register width, and
 execution is a parameter of the stage that runs it.
 */
module Instruction {
  import opened Common

  /** Register contents (`RegisterUInt`, 32, 64 or 128 bits wide in the source). */
  type Value = nat

  /** An instruction address (`Target`). */
  type Addr = nat

  /** An architectural register number; register 0 is the hard-wired zero register. */
  type RegId = nat

  /** The register file as the stages use it: `RF::read_source` returns the value of a register. */
  type RegFile = RegId -> Value

  predicate IsZeroRegister(r: RegId)
  {
    r == 0
  }

  /** The branch predictor's record for one instruction (`BPInterface`). */
  datatype BPInterface = BPInterface(isTaken: bool, isHit: bool, target: Addr)

  datatype Instr = Instr(
    isDirectJump: bool,
    isIndirectJump: bool,
    isBranch: bool,
    isLikelyBranch: bool,
    isJump: bool,
    isLongArithmetic: bool,
    /** `get_decoded_target()`: the target decoded from the instruction word */
    decodedTarget: Addr,
    /** `get_actual_decoded_target()`: the address fetch must restart from */
    actualDecodedTarget: Addr,
    /** `get_bp_data()`: what the predictor said when the instruction was fetched */
    bpData: BPInterface,
    /** `get_bp_upd()`: the corrected record sent back to the predictor */
    bpUpdate: BPInterface,
    src1: RegId,
    src2: RegId,
    vSrc1: Value,
    vSrc2: Value,
    vDst: Value,
    /** `get_alu_number()` / `set_alu_number()` */
    aluNumber: int)
  {
    /** `get_src(k)` */
    function Src(k: Slot): RegId
    {
      if k == 0 then src1 else src2
    }

    /** The operand value currently held for source `k`. */
    function VSrc(k: Slot): Value
    {
      if k == 0 then vSrc1 else vSrc2
    }

    /** `set_v_src(v, k)`: only the operand value of source `k` changes. */
    function WithVSrc(k: Slot, v: Value): (r: Instr)
      ensures r.VSrc(k) == v
      ensures forall j: Slot :: j != k ==> r.VSrc(j) == VSrc(j)
      ensures r.(vSrc1 := vSrc1, vSrc2 := vSrc2) == this
    {
      if k == 0 then this.(vSrc1 := v) else this.(vSrc2 := v)
    }

    /** `RF::read_source` for slot `k`: source `k` takes the register file's value of its register. */
    function ReadSource(rf: RegFile, k: Slot): (r: Instr)
      ensures r.VSrc(k) == rf(Src(k))
      ensures forall j: Slot :: j != k ==> r.VSrc(j) == VSrc(j)
      ensures r.(vSrc1 := vSrc1, vSrc2 := vSrc2) == this
    {
      WithVSrc(k, rf(Src(k)))
    }
  }

  /** `instr` and `other` are the same instruction apart from operand values and the alu number. */
  predicate SameButOperandsAndAlu(instr: Instr, other: Instr)
  {
    instr.(vSrc1 := other.vSrc1, vSrc2 := other.vSrc2, aluNumber := other.aluNumber) == other
  }
}

=== FILE: late_alu.dfy ===
/**
 The long-latency execution stage (`Late_alu<FuncInstr>`) as a pure step
 function. One call of `Clock` is one call of `Late_alu::clock`: it counts
 down the flush-expiration latency, handles a flush or trap, and otherwise
 takes the instruction from execute, fetches each source operand either
 from the bypass data port its command selects or from the register file,
 executes it, and routes it to exactly one destination.
 */
module LateAlu {
  import opened Common
  import opened Instruction

  /** Default of the `long-late-alu-latency` option. */
  const DEFAULT_LONG_LATENCY: nat := 3

  /** The option's validity predicate: at least 2 and below 64. */
  predicate AcceptedLongLatency(l: nat)
  {
    2 <= l < 64
  }

  /** Number of bypass data ports per source slot (`RegisterStage::BYPASSING_STAGES_NUMBER`). */
  const BYPASSING_STAGES_NUMBER: nat := 6

  datatype LateAluState = LateAluState(
    /** `last_execution_stage_latency`, fixed at construction */
    lastExecutionStageLatency: nat,
    /** `flush_expiration_latency` */
    flushExpirationLatency: nat)

  /** `has_flush_expired()` */
  predicate HasFlushExpired(s: LateAluState)
  {
    s.flushExpirationLatency == 0
  }

  /**
   Constructing the stage from the configured long latency `l`: the option
   refuses values outside [2, 64), and the stage latency is `l - 1`.
   */
  function Create(l: nat): (r: Option<LateAluState>)
    ensures r.Some? <==> AcceptedLongLatency(l)
    ensures r.Some? ==> 1 <= r.value.lastExecutionStageLatency <= 62
    ensures r.Some? ==> r.value.lastExecutionStageLatency + 1 == l
    ensures r.Some? ==> SelfLoopLatency(r.value) + 1 == l
    ensures r.Some? ==> HasFlushExpired(r.value)
  {
    if AcceptedLongLatency(l) then Some(LateAluState(l - 1, 0)) else None
  }

  /** Read latency of the long-latency self-loop port (`LATE_ALU_2_EXECUTE_LONG_LATENCY`). */
  function SelfLoopLatency(s: LateAluState): nat
  {
    s.lastExecutionStageLatency
  }

  /** `save_flush()`: re-arm the countdown with the stage latency. */
  function SaveFlush(s: LateAluState): (r: LateAluState)
    ensures r.lastExecutionStageLatency == s.lastExecutionStageLatency
    ensures HasFlushExpired(r) <==> s.lastExecutionStageLatency == 0
  {
    s.(flushExpirationLatency := s.lastExecutionStageLatency)
  }

  /** `clock_saved_flush()`: count down by one, stopping at zero. */
  function ClockSavedFlush(s: LateAluState): (r: LateAluState)
    ensures r.lastExecutionStageLatency == s.lastExecutionStageLatency
    ensures r.flushExpirationLatency <= s.flushExpirationLatency
    ensures !HasFlushExpired(s) ==> r.flushExpirationLatency + 1 == s.flushExpirationLatency
    ensures HasFlushExpired(s) ==> HasFlushExpired(r)
  {
    if s.flushExpirationLatency != 0 then
      s.(flushExpirationLatency := s.flushExpirationLatency - 1)
    else
      s
  }

  /** `n` successive calls of `clock_saved_flush()`. */
  function ClockSavedFlushTimes(s: LateAluState, n: nat): LateAluState
    decreases n
  {
    if n == 0 then s else ClockSavedFlushTimes(ClockSavedFlush(s), n - 1)
  }

  /** `get_ready()` of a bypass command: the index of the data port to take the operand from. */
  datatype BypassCommand = BypassCommand(direction: nat)

  /** The values ready on each of a slot's data ports this cycle, oldest first (first element of each output). */
  type DataPorts = d: seq<seq<Value>> | |d| == BYPASSING_STAGES_NUMBER witness [[], [], [], [], [], []]

  /** `BypassPorts`: a slot's command port and its data ports. */
  datatype BypassPorts = BypassPorts(command: Option<BypassCommand>, data: DataPorts)

  /** What the stage's read ports deliver this cycle (`None` = not ready). */
  datatype LateAluInputs = LateAluInputs(
    /** EXECUTE_2_LATE_ALU */
    datapath: Option<Instr>,
    /** BRANCH_2_ALL_FLUSH */
    flush: Option<bool>,
    /** WRITEBACK_2_ALL_FLUSH */
    trap: Option<bool>,
    /** `rps_bypass[0]` */
    bypass1: BypassPorts,
    /** `rps_bypass[1]` */
    bypass2: BypassPorts)
  {
    function Bypass(k: Slot): BypassPorts
    {
      if k == 0 then bypass1 else bypass2
    }
  }

  /** The flush or the trap port carries `true` this cycle. */
  predicate IsFlush(inp: LateAluInputs)
  {
    Asserted(inp.flush) || Asserted(inp.trap)
  }

  /** One port write. */
  datatype LateAluWrite =
    | LongLatency(instr: Instr)   // LATE_ALU_2_EXECUTE_LONG_LATENCY, the self-loop
    | Bypass(value: Value)        // LATE_ALU_2_EXECUTE_BYPASS
    | Branch(instr: Instr)        // the branch datapath
    | Writeback(instr: Instr)     // LATE_ALU_2_WRITEBACK
  {
    /** A write that hands the instruction itself on. */
    predicate IsDestination()
    {
      LongLatency? || Branch? || Writeback?
    }
  }

  /** `std::array::at` on the data ports throws for a direction past their end. */
  datatype LateAluFault = DirectionOutOfRange(slot: Slot, direction: nat)

  /**
   Reading a data port for as long as it is ready, keeping each value read:
   the port holds `queue`, and `data` is the value before the first read.
   */
  function Drain(queue: seq<Value>, data: Value): (r: Value)
    ensures r == if |queue| == 0 then data else queue[|queue| - 1]
    decreases |queue|
  {
    if |queue| == 0 then data else Drain(queue[1..], queue[0])
  }

  /** One slot's operand after the selection, with the slot's ports as left by the reads. */
  datatype Selected = Selected(instr: Instr, ports: BypassPorts, rfRead: bool)

  /** The body of the operand loop for source slot `k`. */
  function SelectOperand(instr: Instr, k: Slot, ports: BypassPorts, rf: RegFile): (r: Result<Selected, LateAluFault>)
    ensures r.Err? <==> ports.command.Some? && ports.command.value.direction >= BYPASSING_STAGES_NUMBER
    ensures r.Err? ==> r.error == DirectionOutOfRange(k, ports.command.value.direction)
    ensures r.Ok? ==> r.value.instr.(vSrc1 := instr.vSrc1, vSrc2 := instr.vSrc2) == instr
    ensures r.Ok? ==> forall j: Slot :: j != k ==> r.value.instr.VSrc(j) == instr.VSrc(j)
    // A ready command: the last value of the selected port, or zero; that port is emptied.
    ensures r.Ok? && ports.command.Some? ==>
              var d := ports.command.value.direction;
              var q := ports.data[d];
              && r.value.instr.VSrc(k) == (if |q| == 0 then 0 else q[|q| - 1])
              && r.value.ports.data[d] == []
              && (forall e :: 0 <= e < BYPASSING_STAGES_NUMBER && e != d ==> r.value.ports.data[e] == ports.data[e])
              && !r.value.rfRead
    // No command: the register file supplies the operand and no port is touched.
    ensures r.Ok? && ports.command.None? ==>
              && r.value.instr.VSrc(k) == rf(instr.Src(k))
              && r.value.ports == ports
              && r.value.rfRead
  {
    match ports.command
    case Some(cmd) =>
      if cmd.direction >= BYPASSING_STAGES_NUMBER then
        Err(DirectionOutOfRange(k, cmd.direction))
      else
        var data := Drain(ports.data[cmd.direction], 0);
        Ok(Selected(instr.WithVSrc(k, data), ports.(command := None, data := ports.data[cmd.direction := []]), false))
    case None =>
      Ok(Selected(instr.ReadSource(rf, k), ports, true))
  }

  /** Where the executed instruction goes (lines 106-123). */
  function Route(instr: Instr): (ws: seq<LateAluWrite>)
    ensures instr.aluNumber != 0 <==> ws == []
    ensures instr.aluNumber == 0 ==>
              && ws[|ws| - 1].IsDestination()
              && ws[|ws| - 1].instr == instr
              && (forall i :: 0 <= i < |ws| - 1 ==> !ws[i].IsDestination())
    ensures instr.aluNumber == 0 && instr.isLongArithmetic ==> ws == [LongLatency(instr)]
    ensures instr.aluNumber == 0 && !instr.isLongArithmetic ==> |ws| == 2 && ws[0] == Bypass(instr.vDst)
    // The one destination: the self-loop only for long arithmetic, else branch for a jump and writeback otherwise.
    ensures instr.aluNumber == 0 && !instr.isLongArithmetic ==>
              ws[1] == (if instr.isJump then Branch(instr) else Writeback(instr))
    ensures forall w :: w in ws && w.LongLatency? ==> instr.isLongArithmetic
    ensures Bypass(instr.vDst) in ws <==> instr.aluNumber == 0 && !instr.isLongArithmetic
    ensures forall w :: w in ws && w.Bypass? ==> w.value == instr.vDst
    ensures forall w :: w in ws && w.Branch? ==> instr.isJump && !instr.isLongArithmetic
    ensures forall w :: w in ws && w.Writeback? ==> !instr.isJump && !instr.isLongArithmetic
  {
    if instr.aluNumber == 0 then
      if instr.isLongArithmetic then
        [LongLatency(instr)]
      else
        [Bypass(instr.vDst)] + (if instr.isJump then [Branch(instr)] else [Writeback(instr)])
    else
      []
  }

  /** Everything one call of `clock` produces when it does not throw. */
  datatype LateAluStep = LateAluStep(
    state: LateAluState,
    /** the instruction after operand selection and execution, if one was read */
    executed: Option<Instr>,
    rfReads: seq<Slot>,
    writes: seq<LateAluWrite>,
    /** the two slots' ports as the cycle's reads leave them */
    bypass1: BypassPorts,
    bypass2: BypassPorts)

  /** The state after a cycle; it depends only on whether the cycle is a flush. */
  function NextState(s: LateAluState, inp: LateAluInputs): (r: LateAluState)
    ensures r.lastExecutionStageLatency == s.lastExecutionStageLatency
    ensures IsFlush(inp) ==> r.flushExpirationLatency == s.lastExecutionStageLatency
    ensures !IsFlush(inp) ==> r == ClockSavedFlush(s)
  {
    var s1 := ClockSavedFlush(s);
    if IsFlush(inp) then SaveFlush(s1) else s1
  }

  /** What a slot's command asks for that the data-port array cannot give. */
  predicate BadDirection(ports: BypassPorts)
  {
    ports.command.Some? && ports.command.value.direction >= BYPASSING_STAGES_NUMBER
  }

  /**
   Lines 79-123: select both operands, slot 0 first, execute, and route the
   result. `execute` stands for `FuncInstr::execute`: the destination value
   computed from the instruction with its operands filled in.
   */
  function Work(s1: LateAluState, instr: Instr, inp: LateAluInputs, rf: RegFile, execute: Instr -> Value): (r: Result<LateAluStep, LateAluFault>)
    ensures r.Err? <==> BadDirection(inp.bypass1) || BadDirection(inp.bypass2)
    ensures r.Ok? ==>
              && r.value.state == s1
              && r.value.executed.Some?
              && r.value.writes == Route(r.value.executed.value)
              && SameButOperandsAndAlu(instr, r.value.executed.value.(vDst := instr.vDst))
              && r.value.executed.value.aluNumber == instr.aluNumber
              && (0 in r.value.rfReads <==> inp.bypass1.command.None?)
              && (1 in r.value.rfReads <==> inp.bypass2.command.None?)
  {
    match SelectOperand(instr, 0, inp.bypass1, rf)
    case Err(e) => Err(e)
    case Ok(a) =>
      match SelectOperand(a.instr, 1, inp.bypass2, rf)
      case Err(e) => Err(e)
      case Ok(b) =>
        var done := b.instr.(vDst := execute(b.instr));
        var readSlots: seq<Slot> := (if a.rfRead then [0] else []) + (if b.rfRead then [1] else []);
        Ok(LateAluStep(s1, Some(done), readSlots, Route(done), a.ports, b.ports))
  }

  /** `clock(cycle)`: one cycle of the long-latency execution stage. */
  function Clock(s: LateAluState, inp: LateAluInputs, rf: RegFile, execute: Instr -> Value): (r: Result<LateAluStep, LateAluFault>)
    ensures r.Ok? ==> r.value.state == NextState(s, inp)
    // Flush or trap, and bubble: nothing is read and nothing is written.
    ensures IsFlush(inp) || inp.datapath.None? ==>
              && r.Ok? && r.value.writes == [] && r.value.rfReads == [] && r.value.executed.None?
              && r.value.bypass1 == inp.bypass1 && r.value.bypass2 == inp.bypass2
    // An instruction: it throws exactly when a ready command names a port past the end.
    ensures !IsFlush(inp) && inp.datapath.Some? ==>
              (r.Err? <==> exists k: Slot :: BadDirection(inp.Bypass(k)))
    ensures !IsFlush(inp) && inp.datapath.Some? && r.Ok? ==>
              && r.value.executed.Some?
              && r.value.writes == Route(r.value.executed.value)
              && SameButOperandsAndAlu(inp.datapath.value, r.value.executed.value.(vDst := inp.datapath.value.vDst))
              && r.value.executed.value.aluNumber == inp.datapath.value.aluNumber
              && (forall k: Slot :: k in r.value.rfReads <==> inp.Bypass(k).command.None?)
  {
    var s1 := NextState(s, inp);
    if IsFlush(inp) || inp.datapath.None? then
      Ok(LateAluStep(s1, None, [], [], inp.bypass1, inp.bypass2))
    else
      assert inp.Bypass(0) == inp.bypass1 && inp.Bypass(1) == inp.bypass2;
      Work(s1, inp.datapath.value, inp, rf, execute)
  }
}

=== FILE: late_alu_lemmas.dfy ===
/**
 Properties of the long-latency execution stage that span several calls:
 the flush countdown over a run of cycles, where each operand comes from,
 and how much of the stage's state its outputs depend on.
 */
module LateAluLemmas {
  import opened Common
  import opened Instruction
  import opened LateAlu

  /** The default long latency is accepted and gives a stage latency of 2. */
  lemma DefaultLatencyAccepted()
    ensures Create(DEFAULT_LONG_LATENCY) == Some(LateAluState(2, 0))
  {
  }

  /** `n` calls of `clock_saved_flush()` count down by `n`, stopping at zero. */
  lemma {:induction false} CountdownAfter(s: LateAluState, n: nat)
    ensures ClockSavedFlushTimes(s, n).lastExecutionStageLatency == s.lastExecutionStageLatency
    ensures ClockSavedFlushTimes(s, n).flushExpirationLatency ==
              if n >= s.flushExpirationLatency then 0 else s.flushExpirationLatency - n
    decreases n
  {
    if n > 0 {
      CountdownAfter(ClockSavedFlush(s), n - 1);
    }
  }

  /** `has_flush_expired()` holds after `n` countdown steps exactly when `n` reaches the countdown. */
  lemma ExpiredExactlyWhenCountedOut(s: LateAluState, n: nat)
    ensures HasFlushExpired(ClockSavedFlushTimes(s, n)) <==> n >= s.flushExpirationLatency
  {
    CountdownAfter(s, n);
  }

  /**
   After `save_flush()` the flush has expired after exactly as many calls of
   `clock_saved_flush()` as the stage latency, and not after fewer.
   */
  lemma ExpiresAfterStageLatency(s: LateAluState)
    ensures HasFlushExpired(ClockSavedFlushTimes(SaveFlush(s), s.lastExecutionStageLatency))
    ensures forall n: nat :: n < s.lastExecutionStageLatency ==> !HasFlushExpired(ClockSavedFlushTimes(SaveFlush(s), n))
  {
    CountdownAfter(SaveFlush(s), s.lastExecutionStageLatency);
    forall n: nat | n < s.lastExecutionStageLatency
      ensures !HasFlushExpired(ClockSavedFlushTimes(SaveFlush(s), n))
    {
      CountdownAfter(SaveFlush(s), n);
    }
  }

  /** The state after the cycles `inps`, whatever each cycle computes. */
  function Run(s: LateAluState, inps: seq<LateAluInputs>): LateAluState
    decreases |inps|
  {
    if |inps| == 0 then s else Run(NextState(s, inps[0]), inps[1..])
  }

  predicate NoFlush(inps: seq<LateAluInputs>)
  {
    forall i :: 0 <= i < |inps| ==> !IsFlush(inps[i])
  }

  /** Cycles without a flush only count down. */
  lemma {:induction false} QuietRunCountsDown(s: LateAluState, inps: seq<LateAluInputs>)
    requires NoFlush(inps)
    ensures Run(s, inps) == ClockSavedFlushTimes(s, |inps|)
    decreases |inps|
  {
    if |inps| > 0 {
      assert !IsFlush(inps[0]);
      assert NoFlush(inps[1..]) by {
        forall i | 0 <= i < |inps[1..]| ensures !IsFlush(inps[1..][i]) {
          assert inps[1..][i] == inps[i + 1];
        }
      }
      QuietRunCountsDown(ClockSavedFlush(s), inps[1..]);
    }
  }

  /**
   A flush cycle followed by `q` quiet cycles: the countdown stands at the
   stage latency less `q`, and the flush has expired exactly when at least
   the stage latency of quiet cycles has passed.
   */
  lemma FlushThenQuietCycles(s: LateAluState, inps: seq<LateAluInputs>)
    requires |inps| >= 1 && IsFlush(inps[0]) && NoFlush(inps[1..])
    ensures var q := |inps| - 1;
            Run(s, inps).flushExpirationLatency ==
              if q >= s.lastExecutionStageLatency then 0 else s.lastExecutionStageLatency - q
    ensures HasFlushExpired(Run(s, inps)) <==> |inps| - 1 >= s.lastExecutionStageLatency
  {
    var armed := NextState(s, inps[0]);
    QuietRunCountsDown(armed, inps[1..]);
    CountdownAfter(armed, |inps| - 1);
  }

  /** A cycle the stage processes: no flush or trap, and an instruction ready. */
  predicate Processes(inp: LateAluInputs)
  {
    !IsFlush(inp) && inp.datapath.Some?
  }

  /**
   A slot with a ready, in-range command takes the LAST value its selected
   data port delivers this cycle (zero when that port delivers none), does
   not read the register file, and leaves that port empty.
   */
  lemma OperandFromBypass(s: LateAluState, inp: LateAluInputs, rf: RegFile, execute: Instr -> Value, k: Slot)
    requires Processes(inp) && Clock(s, inp, rf, execute).Ok?
    requires inp.Bypass(k).command.Some?
    ensures var c := Clock(s, inp, rf, execute).value;
            var d := inp.Bypass(k).command.value.direction;
            var q := inp.Bypass(k).data[d];
            && d < BYPASSING_STAGES_NUMBER
            && c.executed.value.VSrc(k) == (if |q| == 0 then 0 else q[|q| - 1])
            && k !in c.rfReads
            && (if k == 0 then c.bypass1 else c.bypass2).data[d] == []
  {
    var instr := inp.datapath.value;
    var a := SelectOperand(instr, 0, inp.bypass1, rf);
    var b := SelectOperand(a.value.instr, 1, inp.bypass2, rf);
    assert Clock(s, inp, rf, execute).value.executed.value == b.value.instr.(vDst := execute(b.value.instr));
  }

  /** A slot without a ready command takes its operand from the register file. */
  lemma OperandFromRegisterFile(s: LateAluState, inp: LateAluInputs, rf: RegFile, execute: Instr -> Value, k: Slot)
    requires Processes(inp) && Clock(s, inp, rf, execute).Ok?
    requires inp.Bypass(k).command.None?
    ensures var c := Clock(s, inp, rf, execute).value;
            && c.executed.value.VSrc(k) == rf(inp.datapath.value.Src(k))
            && k in c.rfReads
            && (if k == 0 then c.bypass1 else c.bypass2) == inp.Bypass(k)
  {
    var instr := inp.datapath.value;
    var a := SelectOperand(instr, 0, inp.bypass1, rf);
    var b := SelectOperand(a.value.instr, 1, inp.bypass2, rf);
    assert Clock(s, inp, rf, execute).value.executed.value == b.value.instr.(vDst := execute(b.value.instr));
  }

  /** The destination value written is what `execute` computes from the instruction with its selected operands. */
  lemma ResultIsExecuted(s: LateAluState, inp: LateAluInputs, rf: RegFile, execute: Instr -> Value)
    requires Processes(inp) && Clock(s, inp, rf, execute).Ok?
    ensures var e := Clock(s, inp, rf, execute).value.executed.value;
            e.vDst == execute(e.(vDst := inp.datapath.value.vDst))
  {
    var instr := inp.datapath.value;
    var a := SelectOperand(instr, 0, inp.bypass1, rf);
    var b := SelectOperand(a.value.instr, 1, inp.bypass2, rf);
    assert b.value.instr.vDst == instr.vDst;
  }

  /**
   A processed instruction with alu number 0 goes to exactly one destination:
   a long-arithmetic one only to the self-loop; any other one publishes its
   result on the bypass and goes to branch if it is a jump, else to writeback.
   */
  lemma OneDestinationPerInstruction(s: LateAluState, inp: LateAluInputs, rf: RegFile, execute: Instr -> Value)
    requires Processes(inp) && Clock(s, inp, rf, execute).Ok?
    ensures var c := Clock(s, inp, rf, execute).value;
            var ws := c.writes;
            inp.datapath.value.aluNumber == 0 ==>
              && |ws| >= 1
              && |set i | 0 <= i < |ws| && ws[i].IsDestination()| == 1
              && ws[|ws| - 1].instr == c.executed.value
              && (inp.datapath.value.isLongArithmetic <==> |ws| == 1)
              && (ws[|ws| - 1].LongLatency? <==> inp.datapath.value.isLongArithmetic)
              && (ws[|ws| - 1].Branch? <==> !inp.datapath.value.isLongArithmetic && inp.datapath.value.isJump)
              && (ws[|ws| - 1].Writeback? <==> !inp.datapath.value.isLongArithmetic && !inp.datapath.value.isJump)
    ensures inp.datapath.value.aluNumber != 0 ==> Clock(s, inp, rf, execute).value.writes == []
  {
    var c := Clock(s, inp, rf, execute).value;
    var ws := c.writes;
    if inp.datapath.value.aluNumber == 0 {
      assert ws == Route(c.executed.value);
      assert (set i | 0 <= i < |ws| && ws[i].IsDestination()) == {|ws| - 1};
    }
  }

  /**
   Nothing the stage reads or writes depends on the flush countdown: two
   states with the same latency produce the same cycle apart from the state.
   (`has_flush_expired()` is never consulted.)
   */
  lemma CountdownNeverGates(s1: LateAluState, s2: LateAluState, inp: LateAluInputs, rf: RegFile, execute: Instr -> Value)
    requires s1.lastExecutionStageLatency == s2.lastExecutionStageLatency
    ensures Clock(s1, inp, rf, execute).Ok? <==> Clock(s2, inp, rf, execute).Ok?
    ensures Clock(s1, inp, rf, execute).Ok? ==>
              var c1 := Clock(s1, inp, rf, execute).value;
              var c2 := Clock(s2, inp, rf, execute).value;
              c1.(state := c2.state) == c2
  {
  }
}
